=== FILE: README.md ===
# Aaharai: a Dafny model of the quiz scorer, the seasonal rule, the database writes and the AI routes

Aaharai is a Next.js wellness application built on Ayurveda. A user takes a five-question
*prakriti* (body type) quiz. The result is one of the three doshas: Vata, Pitta or Kapha.
The user can then ask for a meal plan, a meal analysis, a daily routine (*dinacharya*), a home
remedy (*nuskhe*) or a food swap. These come from a large-language-model provider, or from fixed
mock answers when no API key is configured. The user can also log food, which bumps a streak
counter, and save their prakriti to their profile.

This project models the logic of that application in Dafny 4.11 and proves its properties.

| file | module | what it models |
|---|---|---|
| `js_values.dfy` | `JsValues` | JSON values, `request.json()` destructuring, JavaScript truthiness, `NextResponse.json` replies |
| `js_strings.dfy` | `JsStrings` | `trim` (ECMAScript white space), ASCII `toUpperCase`/`toLowerCase`, `includes` |
| `doshas.dfy` | `Doshas` | the three doshas and their names |
| `fence.dfy` | `Fence` | `content.replace(/```json\|```/g, "").trim()` (lib/ai.ts:54 and every AI route) |
| `provider.dfy` | `Provider` | the provider reply, the API key, the route-side normaliser |
| `ai.dfy` | `Ai` | `getMockPlan` and `generateMealPlan` (lib/ai.ts) |
| `quiz.dfy` | `PrakritiQuiz` | the quiz table, the tally loop, the arg-max `reduce`, and the page state as class `PrakritiTest` |
| `ritucharya.dfy` | `Ritucharya` | `GET /api/ritucharya`: the month → season rule, coordinate defaults, the location tag |
| `store.dfy` | `Store` | `POST /api/log-food` and `POST /api/save-prakriti` on in-memory tables, with class `Database` |
| `library.dfy` | `Library` | the ingredient library and its category/name filter |
| `routes.dfy` | `Routes` | `generate-plan`, `analyze-food`, `dinacharya`, `nuskhe`, `swap-food` |

The model abstracts the outside world as follows:

- The provider's reply is a value: `Threw`, `NoContent` or `Content(text)`. `Threw` covers a rejected
  fetch, an unreadable reply, and content that is not a string.
- `JSON.parse` is a parameter `parse: string -> Option<Json>`.
- The API key is an `Option<string>`. A key counts as configured when it is present and not empty.
- The request body is `Unreadable` or `Parsed(json)`.
- The weather reply and the current month are parameters.
- The clock is a parameter `now`.
- A write the database refuses is an explicit fault parameter.

The model states what the code does, including where that is not what one might expect:

- The four prompted routes (analyze-food, dinacharya, nuskhe, swap-food) do not fall back to their
  mock when the reply is bad. A missing content field or unparsable JSON ends in the `catch` block,
  which answers 500. Only `generateMealPlan` in lib/ai.ts falls back
  (`Routes.PromptedRoutesDoNotFallBack`).
- A failed weather request makes `/api/ritucharya` answer 500. It does not answer with the season
  and leave out the temperature (`Ritucharya.Ritucharya`).
- Fence markers are deleted wherever they occur in the reply, not only at its ends
  (`Fence.NoFenceLeft`).
- Quiz ties go to the earliest of Vata, Pitta, Kapha, in that fixed order. The order in which the
  answers were given plays no part (`PrakritiQuiz.CountIsMultiplicity`,
  `PrakritiQuiz.TiesGoToEarlier`).
- A required field is checked with JavaScript truthiness, not as a non-empty string. A non-zero
  number, `true`, and any object or array (even an empty one) pass the check.
- generate-plan's mock reply carries no `isMock` tag (`Routes.GeneratePlanHasNoMockFlag`).
- A field that is an object with its own `toString` member (or an array holding one) cannot be
  turned into a string. Where the code interpolates that field into the prompt, or uses it as a
  property key, the handler throws and answers 500 without sending a request
  (`Routes.UnconvertibleFieldFails`).

## Model

| member | source | states |
|---|---|---|
| JsValues.TruthyExactly | app/api/nuskhe/route.ts:11 | the `!x` checks reject exactly undefined, null, false, 0 and "", and accept every object and array, even an empty one |
| JsValues.Destructuring | app/api/generate-plan/route.ts:6 | destructuring `await request.json()` throws for an unreadable body and for null; a present field reads back its value and a missing one is undefined |
| JsValues.Field | app/api/generate-plan/route.ts:6 | a destructured field is only ever defined when the body destructures |
| JsValues.OwnToStringThrows | app/api/nuskhe/route.ts:26 | `{"toString": 0}` and an array holding it cannot be turned into a string; strings, `{}` and `{"valueOf": 0}` can |
| JsStrings.Trim | lib/ai.ts:54 | `trim` removes exactly the leading and trailing white space: the result is a slice of the input, every character cut off is white space, and the result neither starts nor ends with white space |
| JsStrings.TrimIdempotent | lib/ai.ts:54 | trimming twice is trimming once |
| JsStrings.Upper | app/api/save-prakriti/route.ts:13 | `toUpperCase` keeps the length and maps each ASCII lower-case letter to its capital, leaving every other character alone |
| JsStrings.UpperIdempotent | app/api/save-prakriti/route.ts:13 | an upper-cased string holds no lower-case ASCII letter and upper-casing it again changes nothing |
| JsStrings.Lower | app/library/page.tsx:72 | `toLowerCase` keeps the length and maps each ASCII capital to its lower-case letter |
| Fence.RemoveFences | lib/ai.ts:54 | the global replace scans left to right, tries "```json" before "```", and never lengthens the text |
| Fence.Strip | lib/ai.ts:54 | the normalised reply is never longer than the content, never starts or ends with white space, and contains no "```" |
| Fence.NoFenceLeft | lib/ai.ts:54 | after the replace no "```" is left anywhere, including one formed by joining the text around a deleted marker |
| Fence.StripWithoutBackticks | lib/ai.ts:54 | on text without backticks, stripping is trimming |
| Fence.StripFencedBody | lib/ai.ts:54 | "```json" + body + "```" with a backtick-free body strips to the trimmed body |
| Fence.JsonFenceRemovedAnywhere | lib/ai.ts:54 | a "```json" marker after backtick-free text is deleted, not only at the start |
| Fence.PlainFenceRemovedAnywhere | lib/ai.ts:54 | a "```" marker after backtick-free text is deleted; if "json" follows it, the whole "```json" is deleted |
| Fence.FenceFreeKept | lib/ai.ts:54 | text without "```" passes through the replace unchanged |
| Fence.StripIdempotent | lib/ai.ts:54 | normalising a normalised reply changes nothing |
| Provider.Normalize | app/api/analyze-food/route.ts:54-58 | the routes' `JSON.parse(content.replace(...).trim())` succeeds exactly when the reply has content and its stripped text parses |
| Ai.PlansAreValid | lib/ai.ts:66-80 | each of the three fallback plans has breakfast, lunch and dinner, each with a string name, description and benefits |
| Ai.GetMockPlan | lib/ai.ts:63-83 | "Pitta" and "Kapha" get their own plan and every other string gets the Vata plan; the plan is always well-formed |
| Ai.MockPlanExactly | lib/ai.ts:65-82 | each plan is returned for exactly one set of names: Pitta only for "Pitta", Kapha only for "Kapha", Vata for all else |
| Ai.LowerCaseNamesFallBack | lib/ai.ts:82 | the lookup is case-sensitive: "pitta", "kapha" and "vata" all get the Vata plan |
| Ai.GetMockPlanAsWritten | lib/ai.ts:65-82 | as written, the object-literal lookup returns an inherited Object.prototype member exactly for those member names, and agrees with `GetMockPlan` otherwise |
| Ai.InheritedNameEscapesFallback | lib/ai.ts:82 | "constructor" finds an inherited member instead of falling back to the Vata plan |
| Ai.PropertyName | lib/ai.ts:82 | the property key `plans[dosha]` reads: a string dosha is itself, `[]` is "", and a one-element array of a string is that string |
| Ai.MockPlanFor | lib/ai.ts:82 | `plans[dosha]` throws exactly when the dosha cannot be turned into a property key; otherwise the fallback is a well-formed plan, and for a string dosha it is `getMockPlan` of that string |
| Ai.GenerateMealPlan | lib/ai.ts:7-61 | the promise rejects exactly when the dosha cannot be turned into a string (the prompt at lines 13-15 and the lookup at line 82 run outside the `try`); a request is sent exactly when a key is configured and the dosha converts; without a key the plan is the mock plan; a usable reply gives its parsed value; any other reply (thrown, no content, empty content, unparsable) gives the mock plan |
| Ai.MealPlanIsMockOrParsed | lib/ai.ts:7-61 | the call rejects if and only if the dosha cannot be turned into a string; when it resolves, the plan is the mock plan or the parsed reply |
| Ai.UsableMatchesNormalize | lib/ai.ts:50-55 | when JSON.parse rejects "", the meal-plan path accepts a reply exactly when the routes' normaliser does |
| PrakritiQuiz.QuestionTable | app/prakriti-test/page.tsx:21-67 | five questions with ids 1 to 5, each offering one option per dosha in the order Vata, Pitta, Kapha |
| PrakritiQuiz.ValuesFor | app/prakriti-test/page.tsx:101 | `Object.values` over integer keys in ascending order yields at most one value per id, each an answer of the map |
| PrakritiQuiz.ValuesForMultiplicity | app/prakriti-test/page.tsx:101 | over distinct ids, each dosha occurs among the values exactly as often as ids are answered with it |
| PrakritiQuiz.AnswerValues | app/prakriti-test/page.tsx:101 | when only question ids are answered, there is one value per answer, and each dosha occurs as often as it was chosen |
| PrakritiQuiz.ValuesForLength | app/prakriti-test/page.tsx:101 | `Object.values(answers)` yields one value per answered question |
| PrakritiQuiz.CountIsMultiplicity | app/prakriti-test/page.tsx:101 | a dosha's count is its multiplicity among the answers, whatever their order |
| PrakritiQuiz.CountsSum | app/prakriti-test/page.tsx:100-101 | the three counts add up to the number of answers |
| PrakritiQuiz.Entries | app/prakriti-test/page.tsx:104 | `Object.entries(scores)` lists Vata, Pitta, Kapha in that order, each with its own score |
| PrakritiQuiz.TallyScores | app/prakriti-test/page.tsx:100-101 | the `forEach` loop leaves each score equal to the dosha's multiplicity among the answers, and the scores sum to the number of answers |
| PrakritiQuiz.Reduce | app/prakriti-test/page.tsx:104-106 | the reduce returns an entry whose count is at least every count, and no earlier entry has that count |
| PrakritiQuiz.Dominant | app/prakriti-test/page.tsx:104-106 | the chosen dosha's score is at least every other score, and every dosha before it in the order Vata, Pitta, Kapha scores strictly less |
| PrakritiQuiz.DominantIsFirstMaximum | app/prakriti-test/page.tsx:104-106 | a dosha is chosen if and only if it is the first maximum in the order Vata, Pitta, Kapha |
| PrakritiQuiz.TiesGoToEarlier | app/prakriti-test/page.tsx:104-106 | a Vata–Pitta or Vata–Kapha tie at the top goes to Vata, and a Pitta–Kapha tie at the top goes to Pitta |
| PrakritiQuiz.NoAnswersGiveVata | app/prakriti-test/page.tsx:100-106 | with no answers the result is Vata |
| PrakritiQuiz.TallyCoversAnswers | app/prakriti-test/page.tsx:100-101 | when only question ids are answered, the scores sum to the number of answered questions |
| PrakritiQuiz.PrakritiTest.constructor | app/prakriti-test/page.tsx:71-77 | the quiz starts at step 0 with no answers, no result and no meal plan |
| PrakritiQuiz.PrakritiTest.NextEnabled | app/prakriti-test/page.tsx:203 | Next is enabled only when the current question has an answer, so never before an option was picked (`HandleSelect` gives the converse: answering enables it) |
| PrakritiQuiz.PrakritiTest.HandleSelect | app/prakriti-test/page.tsx:87-89 | selecting sets the current question's answer, overwriting an earlier one; other answers, the step and the result are unchanged; Next is then enabled |
| PrakritiQuiz.PrakritiTest.HandleNext | app/prakriti-test/page.tsx:91-97 | below the last step the step goes up by one; on the last step it stays and the result becomes the first maximum of the tally; the step never leaves 0..4 |
| PrakritiQuiz.PrakritiTest.CalculateResult | app/prakriti-test/page.tsx:99-110 | the result becomes the first maximum of the tally of the answers; nothing else changes |
| PrakritiQuiz.PrakritiTest.StartFetch | app/prakriti-test/page.tsx:112-119 | without a result the handler returns at once; otherwise the request carries the result's dosha |
| PrakritiQuiz.PrakritiTest.FinishFetch | app/prakriti-test/page.tsx:120-126 | after the awaits, a parsed response that is not null sets the meal plan to its `plan` field (undefined when absent), whatever the result is by then; a failed request or a null body (whose `data.plan` throws into the catch) changes nothing |
| PrakritiQuiz.PrakritiTest.FetchMealPlan | app/prakriti-test/page.tsx:112-127 | with nothing pressed in between: with a result, a parsed response that is not null sets the meal plan to its `plan` field; with no result, a failed request or a null body, nothing changes |
| PrakritiQuiz.PrakritiTest.RetakeWhileFetching | app/prakriti-test/page.tsx:230-246 | "Retake Quiz" is not disabled while the request is out, so a reset followed by the late reply leaves the page with no result, no answers and step 0 but the previous dosha's meal plan stored |
| PrakritiQuiz.PrakritiTest.Retake | app/prakriti-test/page.tsx:241-246 | "Retake Quiz" (and the identical "Start Over" at lines 273-278) resets the step to 0, the answers to empty, and the result and meal plan to null |
| Ritucharya.Coordinate | app/api/ritucharya/route.ts:12-13 | a missing or empty coordinate falls back to the default; any other value is used as given |
| Ritucharya.LocationTag | app/api/ritucharya/route.ts:54 | the tag is "detected" exactly when a non-empty `lat` was given, and "default" otherwise |
| Ritucharya.WeatherUrl | app/api/ritucharya/route.ts:12-18 | the request always asks the open-meteo forecast for current weather; the defaulted latitude follows "latitude=", then "&longitude=" and the defaulted longitude, just before "&current_weather=true" |
| Ritucharya.SeasonalBody | app/api/ritucharya/route.ts:47-55 | the reply lists the temperature first (left out, giving three fields instead of four, when it is undefined, as JSON drops it), then the season, the advice and the location last |
| Ritucharya.AdviceFor | app/api/ritucharya/route.ts:33-45 | each season has its own fixed ritual and food advice |
| Ritucharya.SeasonOf | app/api/ritucharya/route.ts:28-45 | months 1–4 are exactly the Kapha months, 5–7 exactly the Pitta months, and every other month is Vata, each with its season's advice |
| Ritucharya.SeasonMatchesTable | app/api/ritucharya/route.ts:29-45 | for every month 0–11 the classification agrees with an independent month-by-month table |
| Ritucharya.AdviceDistinct | app/api/ritucharya/route.ts:33-45 | no two seasons share a ritual or a food advice |
| Ritucharya.Temperature | app/api/ritucharya/route.ts:19-21 | reading the temperature succeeds exactly when the weather reply is a document whose `current_weather` is present and not null |
| Ritucharya.Ritucharya | app/api/ritucharya/route.ts:5-61 | 500 "Failed to fetch seasonal data" exactly when the temperature cannot be read; otherwise 200 with the month's season, its advice and the location tag |
| Ritucharya.BodyIgnoresTemperature | app/api/ritucharya/route.ts:47-55 | the reply's season, advice and location do not depend on the temperature, which appears only when defined |
| Ritucharya.SeasonIgnoresWeather | app/api/ritucharya/route.ts:21-55 | two successful replies in the same month carry the same season and advice, whatever the weather |
| Ritucharya.DefaultsToDelhi | app/api/ritucharya/route.ts:12-18 | without parameters, or with empty ones, the weather request uses 28.6139/77.2090, and the location is "default" |
| Store.UpsertStreak | app/api/log-food/route.ts:27-39 | a new user gets {current 1, best 1}; an existing streak gets current + 1 with best unchanged; other users' rows are untouched |
| Store.LogFood | app/api/log-food/route.ts:4-46 | 400 "Missing required data" exactly when userId or foodName is falsy or score is undefined; 200 exactly for a valid request that the database accepts; a food-log row is appended exactly when the insert runs; a refused upsert keeps the new row; users are never touched |
| Store.ZeroScoreAccepted | app/api/log-food/route.ts:8-10 | a score of 0 or null is accepted |
| Store.SatvikIffCategory | app/api/log-food/route.ts:13-21 | the appended row is Satvik exactly when the category is the string "Satvik"; a missing category is not an error |
| Store.StreakAfterLog | app/api/log-food/route.ts:27-39 | after a successful log a new user's streak is {1, 1}, an existing one goes up by one with best unchanged, and other users' streaks are unchanged |
| Store.StreakCountsEveryLog | app/api/log-food/route.ts:24-39 | a new user who logs n meals, even on the same day, has current = n and best = 1, and n new rows |
| Store.SavePrakriti | app/api/save-prakriti/route.ts:4-25 | 400 "Missing data" exactly when userId or prakriti is falsy; on 200 only the user's prakriti changes, to the upper-cased input; every other outcome is 500 "Failed to save" with no change |
| Store.SaveTouchesOneUser | app/api/save-prakriti/route.ts:13-18 | only the named user's prakriti field changes; it then holds no lower-case ASCII letter; other users, logs and streaks are unchanged |
| Store.SaveIdempotent | app/api/save-prakriti/route.ts:13-18 | saving the same input again leaves the same state |
| Store.SavedNamesAreUpperCase | app/api/save-prakriti/route.ts:13 | "vata" and "Vata" are both stored as "VATA", likewise "PITTA" and "KAPHA" |
| Store.Database.PostLogFood | app/api/log-food/route.ts:4-46 | the handler's reply and the tables after it are those `LogFood` gives for the tables before it |
| Store.Database.PostSavePrakriti | app/api/save-prakriti/route.ts:4-25 | the handler's reply and the tables after it are those `SavePrakriti` gives for the tables before it |
| Library.FilterItems | app/library/page.tsx:70-74 | the result is a subsequence of the items, in order, and an item is in it exactly when its category matches ("All" for any) and its lower-cased name contains the lower-cased search |
| Library.FilterKeepsMultiplicity | app/library/page.tsx:70-74 | the filter keeps every copy of a matching item and drops every copy of the others |
| Library.ShowAll | app/library/page.tsx:70-74 | filter "All" with an empty search shows every item, in order |
| Library.SearchIgnoresCase | app/library/page.tsx:72 | upper-casing the search or the item's name does not change whether it matches |
| Library.FilterIgnoresDescriptions | app/library/page.tsx:72 | items that differ only in dosha, benefit or description are filtered alike |
| Library.HerbsTab | app/library/page.tsx:9-74 | the "Herbs" tab with no search shows Ashwagandha then Brahmi |
| Library.EveryItemHasATab | app/library/page.tsx:7-64 | the first tab is "All" and every item's category is one of the other tabs |
| Routes.Serve | app/api/nuskhe/route.ts:7-67 | a prompted route answers 400 exactly when the body is readable and a required field is falsy; an unreadable body gives its 500; without a key it answers the mock; with one, a prompt field that cannot be turned into a string gives 500 before any request; a request is sent exactly when the fields are present, a key is configured and the prompt builds; then it answers the wrapped parse of the reply, or 500 exactly when the reply does not normalise |
| Routes.ServeReadsOnlyRequired | app/api/nuskhe/route.ts:9 | two requests that agree on the required fields get the same answer |
| Routes.AnalyzeFood | app/api/analyze-food/route.ts:7-64 | no image gives 400 "Image is required" with no request; no key gives the mock analysis with `isMock: true`; a good reply gives `{ analysis }` with no tag; a bad one gives 500 "Failed to analyze food" |
| Routes.Dinacharya | app/api/dinacharya/route.ts:7-67 | a missing wakeUpTime or dosha gives 400 with no request; no key gives the three mock rituals with `isMock: true`; with a key, a field that cannot be turned into a string gives 500 "Failed to build routine" with no request, and otherwise a request is sent, a good reply is returned unwrapped and a bad one gives that 500 |
| Routes.Nuskhe | app/api/nuskhe/route.ts:7-67 | no symptom gives 400 "Symptom is required"; no key gives the mock remedy with `isMock: true`; with a key, a symptom that cannot be turned into a string gives 500 "Failed to find a remedy" with no request, and otherwise a request is sent, a good reply gives `{ remedy }` and a bad one gives that 500 |
| Routes.SwapFood | app/api/swap-food/route.ts:7-65 | no craving gives 400 "Craving is required"; no key gives the mock swap with `isMock: true`; with a key, a craving that cannot be turned into a string gives 500 "Failed to find a swap" with no request, and otherwise a request is sent, a good reply gives `{ swap }` and a bad one gives that 500 |
| Routes.GeneratePlan | app/api/generate-plan/route.ts:4-18 | no dosha gives 400 "Dosha is required" with no call; when `generateMealPlan(dosha)` resolves the reply is `{ plan }`, and when it rejects the reply is 500 "Failed to generate plan"; a request is sent exactly when `generateMealPlan` sends one |
| Routes.GeneratePlanAbsorbsFailures | app/api/generate-plan/route.ts:6-16 | for a readable request the only 500 is a dosha that cannot be turned into a string; whatever the provider does, an unusable reply gives 200 with the mock plan |
| Routes.PromptedRoutesDoNotFallBack | app/api/analyze-food/route.ts:54-62 | with a key and a reply that does not normalise, the four prompted routes answer 500, while generate-plan answers 200 exactly when its dosha converts to a string |
| Routes.SameNormaliser | app/api/analyze-food/route.ts:56 | a reply that normalises to v becomes the plan, the analysis, the remedy, the swap and the routine alike, whenever the interpolated fields convert to strings |
| Routes.UnconvertibleFieldFails | app/api/nuskhe/route.ts:25-26 | a field that cannot be turned into a string gives generate-plan its 500 with or without a key, and dinacharya, nuskhe and swap-food their 500 with a key, never with a request; without a key nuskhe still answers its mock |
| Routes.GeneratePlanHasNoMockFlag | app/api/generate-plan/route.ts:13 | generate-plan's 200 reply has a `plan` field and no `isMock` field |
| Routes.NuskheIgnoresOtherFields | app/api/nuskhe/route.ts:9 | adding a dosha or any other field to a nuskhe request does not change the answer |
| Routes.MockAnalysisContents | app/api/analyze-food/route.ts:13-23 | the mock analysis has score 85, category "Satvik", string breakdown and advice, and four items |
| Routes.MockRitualTimes | app/api/dinacharya/route.ts:15-23 | the mock routine has three rituals at 05:30, 06:00 and 07:30 AM, each with an activity and a description |
| Routes.PizzaWithoutKey | app/api/swap-food/route.ts:11-22 | craving "Pizza" without a key gives 200, no request, `isMock: true`, and the swap "Ragi & Vegetable Utopia" with four ingredients |
| Routes.RemedyWithoutKey | app/api/nuskhe/route.ts:13-22 | without a key every symptom gets the "Warm Ginger & Honey Elixir" remedy, tagged as a mock |
| Routes.QuizRequestAccepted | app/prakriti-test/page.tsx:116-119 | the quiz page's `{ dosha: result }` request always gets 200; without a key its plan is the result's own mock plan |

## Left out

- The outbound requests to the completion provider and the weather service are not modelled. Their outcomes are parameters (`Reply`, `WeatherReply`).
- The prompt texts, model names and request headers are not modelled. They are content, not behaviour.
- `JSON.parse` is not modelled. It is a parameter; `RejectsEmpty` is the one fact about it that a lemma needs.
- `request.json()` is not modelled. Its outcome is a parameter.
- `console` logging is left out.
- The Prisma client, the schema and the adapter are left out. Generated ids and `createdAt` columns are not modelled.
- `lastLog` is the number `now`, not a `Date`, and appears as a number in the reply.
- The unused `today` value in log-food is left out.
- A write the database refuses (a foreign key, an enum check, a connection failure) is a fault parameter rather than a schema rule.
- The schema is not available, so userId, foodName and a saved user id are taken to be string columns: any other JSON value makes the write fail with 500.
- Store.SavePrakriti: the stored value is the upper-cased string. Whether the database enum accepts it is folded into the `updateFails` parameter.
- JsStrings.Upper: only ASCII letters are mapped; `toUpperCase` on other scripts (and its length-changing cases such as "ß") is not modelled.
- JsStrings.Lower: only ASCII letters are mapped.
- Ai.GetMockPlan: reads only the three own keys of the plans table. The inherited-name behaviour of the code is modelled separately by `Ai.GetMockPlanAsWritten` (see Findings). The members built on it, listed below, share this: where the code's mock plan for a dosha such as "constructor" is an inherited function (so generate-plan answers `{ plan: <function> }`, serialised without the plan), they give the Vata plan. `Routes.QuizRequestAccepted` is unaffected, since a quiz result is always a dosha name.
- Routes.GeneratePlanAbsorbsFailures: uses the corrected `Ai.GetMockPlan`, so an inherited name such as "constructor" gets the Vata plan here (see Findings).
- Routes.GeneratePlan: uses the corrected `Ai.GetMockPlan`, so an inherited name such as "constructor" gets the Vata plan here (see Findings).
- Ai.GenerateMealPlan: uses the corrected `Ai.GetMockPlan`, so an inherited name such as "constructor" gets the Vata plan here (see Findings).
- Ai.MockPlanFor: uses the corrected `Ai.GetMockPlan`, so an inherited name such as "constructor" gets the Vata plan here (see Findings).
- Ai.PropertyName: a dosha that converts to a string but is neither a string nor a short array (a number, a boolean, an object without its own `toString`, an array of two or more elements) is named by `String(value)` in the code. That name is never a plan name or an inherited member, so the model gives the Vata plan without computing the name.
- JSON numbers are mathematical reals, not IEEE doubles.
- The quiz's saved result in localStorage (load on mount, save, remove) is not modelled, so `result` starts as null.
- The `loading` flag, the progress bar, the rendering and the animation of the quiz page are left out.
- The library page's icons, colours and layout are left out.
- The scanner, dinacharya, swapper, nuskhe, dashboard, science and home pages, the navigation bar and the layout are left out. They only render what the routes return.
- The authentication options (lib/auth/auth-options.ts) are not part of this model: they configure a foreign library.
- `new URL(request.url)` in the weather route is taken to succeed; the framework always passes a valid URL.

## Findings

| source | as written | input that shows it | evidently intended | confidence | as-written member | corrected member |
|---|---|---|---|---|---|---|
| lib/ai.ts:82 | `plans[dosha] \|\| plans["Vata"]` reads a plain object literal, so names inherited from Object.prototype are found too | dosha "constructor" (or "toString", "valueOf", "\_\_proto\_\_") returns a function or the prototype object instead of the Vata plan; generate-plan then answers `{ plan: {} }` or drops the field | every name other than "Vata", "Pitta" and "Kapha" gets the Vata plan | high, not executed | Ai.GetMockPlanAsWritten | Ai.GetMockPlan |

=== FILE: ai.dfy ===
/**
 * lib/ai.ts: `generateMealPlan` asks the completion provider for a one-day
 * meal plan and falls back to a fixed plan per dosha (`getMockPlan`) when no
 * key is configured or anything about the reply goes wrong. It never throws.
 */
module Ai {
  import opened JsValues
  import opened Fence
  import opened Provider

  /** One meal of a plan: `{ name, description, benefits }`. */
  function Meal(name: string, description: string, benefits: string): Json
  {
    JObj([("name", JStr(name)), ("description", JStr(description)), ("benefits", JStr(benefits))])
  }

  /** A plan: `{ breakfast, lunch, dinner }`. */
  function Plan(breakfast: Json, lunch: Json, dinner: Json): Json
  {
    JObj([("breakfast", breakfast), ("lunch", lunch), ("dinner", dinner)])
  }

  /** A meal has a string name, description and benefits. */
  predicate ValidMeal(m: Json)
  {
    HasString(m, "name") && HasString(m, "description") && HasString(m, "benefits")
  }

  /** The shape the meal-plan prompt asks for and the quiz page renders. */
  predicate ValidPlan(p: Json)
  {
    && Prop(p, "breakfast").Some? && ValidMeal(Prop(p, "breakfast").value)
    && Prop(p, "lunch").Some? && ValidMeal(Prop(p, "lunch").value)
    && Prop(p, "dinner").Some? && ValidMeal(Prop(p, "dinner").value)
  }

  lemma MealIsValid(name: string, description: string, benefits: string)
    ensures ValidMeal(Meal(name, description, benefits))
  {
    var f := Meal(name, description, benefits).fields;
    LookupUnique(f, 0, "name");
    LookupUnique(f, 1, "description");
    LookupUnique(f, 2, "benefits");
  }

  lemma PlanIsValid(breakfast: Json, lunch: Json, dinner: Json)
    requires ValidMeal(breakfast) && ValidMeal(lunch) && ValidMeal(dinner)
    ensures ValidPlan(Plan(breakfast, lunch, dinner))
  {
    var f := Plan(breakfast, lunch, dinner).fields;
    LookupUnique(f, 0, "breakfast");
    LookupUnique(f, 1, "lunch");
    LookupUnique(f, 2, "dinner");
  }

  const VataPlan: Json := Plan(
    Meal("Warm Oatmeal with Ghee & Almonds",
         "Cooked oats with a spoonful of ghee, cinnamon, and soaked almonds.",
         "Warm, heavy, and oily qualities balance Vata's dryness."),
    Meal("Kitchari (Moong Dal & Rice)",
         "Basmati rice and moong dal cooked soft with cumin and ginger.",
         "Easy to digest and grounding."),
    Meal("Pumpkin Soup",
         "Creamy pumpkin soup with coconut milk and nutmeg.",
         "Soothing and warm for the evening."))

  const PittaPlan: Json := Plan(
    Meal("Cooling Fruit Bowl",
         "Sweet apples, pears, and pomegranate seeds with mint.",
         "Naturally sweet and cooling to reduce body heat."),
    Meal("Quinoa & Cucumber Salad",
         "Quinoa with cucumber, cilantro, and lime dressing.",
         "Light and refreshing without being spicy."),
    Meal("Steamed Vegetables & Rice",
         "Steamed broccoli, zucchini, and white basmati rice.",
         "Mild and easy on the digestive fire."))

  const KaphaPlan: Json := Plan(
    Meal("Spiced Quinoa Porridge",
         "Quinoa cooked with ginger, cloves, and honey (no milk).",
         "Light, warm, and spicy to stimulate metabolism."),
    Meal("Millet Roti & Bitter Gourd Sabzi",
         "Bajra roti with light karela sabzi.",
         "Bitter and pungent tastes reduce Kapha heaviness."),
    Meal("Lentil Soup",
         "Spicy masoor dal soup with black pepper.",
         "Light and protein-rich."))

  /** Every fallback plan has breakfast, lunch and dinner, each with name, description and benefits. */
  lemma PlansAreValid()
    ensures ValidPlan(VataPlan) && ValidPlan(PittaPlan) && ValidPlan(KaphaPlan)
  {
    VataPlanIsValid();
    PittaPlanIsValid();
    KaphaPlanIsValid();
  }

  lemma VataPlanIsValid() ensures ValidPlan(VataPlan) { PlanIsValid3(VataPlan); }
  lemma PittaPlanIsValid() ensures ValidPlan(PittaPlan) { PlanIsValid3(PittaPlan); }
  lemma KaphaPlanIsValid() ensures ValidPlan(KaphaPlan) { PlanIsValid3(KaphaPlan); }

  lemma PlanIsValid3(p: Json)
    requires p.JObj? && |p.fields| == 3
    requires forall k :: 0 <= k < 3 ==> p.fields[k].1.JObj? && |p.fields[k].1.fields| == 3
    requires forall k, m :: 0 <= k < 3 && 0 <= m < 3 ==> p.fields[k].1.fields[m].1.JStr?
    requires p.fields[0].0 == "breakfast" && p.fields[1].0 == "lunch" && p.fields[2].0 == "dinner"
    requires forall k :: 0 <= k < 3 ==> p.fields[k].1.fields[0].0 == "name" && p.fields[k].1.fields[1].0 == "description" && p.fields[k].1.fields[2].0 == "benefits"
    ensures ValidPlan(p)
  {
    var f := p.fields;
    assert p == Plan(f[0].1, f[1].1, f[2].1);
    forall k | 0 <= k < 3 ensures ValidMeal(f[k].1) {
      var g := f[k].1.fields;
      assert f[k].1 == Meal(g[0].1.s, g[1].1.s, g[2].1.s);
      MealIsValid(g[0].1.s, g[1].1.s, g[2].1.s);
    }
    PlanIsValid(f[0].1, f[1].1, f[2].1);
  }

  /**
   * `plans[dosha] || plans["Vata"]`, reading only the three own keys of the
   * plans table: the named plan for exactly "Vata", "Pitta" and "Kapha"
   * (case matters), the Vata plan for every other name.
   */
  function GetMockPlan(dosha: string): (plan: Json)
    ensures ValidPlan(plan)
    ensures dosha == "Pitta" ==> plan == PittaPlan
    ensures dosha == "Kapha" ==> plan == KaphaPlan
    ensures dosha != "Pitta" && dosha != "Kapha" ==> plan == VataPlan
  {
    PlansAreValid();
    if dosha == "Pitta" then PittaPlan
    else if dosha == "Kapha" then KaphaPlan
    else VataPlan
  }

  /** The three plans differ, so the lookup picks each one for exactly one name. */
  lemma MockPlanExactly(dosha: string)
    ensures GetMockPlan(dosha) == PittaPlan <==> dosha == "Pitta"
    ensures GetMockPlan(dosha) == KaphaPlan <==> dosha == "Kapha"
    ensures GetMockPlan(dosha) == VataPlan <==> dosha != "Pitta" && dosha != "Kapha"
  {
    assert VataPlan.fields[0] != PittaPlan.fields[0];
    assert VataPlan.fields[0] != KaphaPlan.fields[0];
    assert PittaPlan.fields[0] != KaphaPlan.fields[0];
  }

  /** The lookup is case-sensitive: lower-case names get the Vata plan. */
  lemma LowerCaseNamesFallBack()
    ensures GetMockPlan("pitta") == VataPlan
    ensures GetMockPlan("kapha") == VataPlan
    ensures GetMockPlan("vata") == VataPlan
  {
  }

  /** The names a plain object literal inherits from Object.prototype. */
  const ObjectPrototypeMembers: set<string> := {
    "constructor", "hasOwnProperty", "isPrototypeOf", "propertyIsEnumerable",
    "toLocaleString", "toString", "valueOf", "__proto__",
    "__defineGetter__", "__defineSetter__", "__lookupGetter__", "__lookupSetter__"
  }

  /** What `plans[dosha]` can reach in the source: an own plan, or an inherited member. */
  datatype PlanLookup = OwnPlan(plan: Json) | Inherited(member: string)

  /**
   * `plans[dosha] || plans["Vata"]` as written: `plans` is an object literal,
   * so a name inherited from Object.prototype finds a function (or, for
   * "__proto__", the prototype object), which is truthy and is returned
   * instead of the Vata plan.
   */
  function GetMockPlanAsWritten(dosha: string): (r: PlanLookup)
    ensures dosha in ObjectPrototypeMembers <==> r.Inherited?
    ensures r.OwnPlan? ==> r.plan == GetMockPlan(dosha)
  {
    if dosha == "Vata" then OwnPlan(VataPlan)
    else if dosha == "Pitta" then OwnPlan(PittaPlan)
    else if dosha == "Kapha" then OwnPlan(KaphaPlan)
    else if dosha in ObjectPrototypeMembers then Inherited(dosha)
    else OwnPlan(VataPlan)
  }

  /** The input that shows it: "constructor" does not fall back to the Vata plan. */
  lemma InheritedNameEscapesFallback()
    ensures GetMockPlanAsWritten("constructor") == Inherited("constructor")
    ensures GetMockPlanAsWritten("constructor") != OwnPlan(VataPlan)
    ensures GetMockPlan("constructor") == VataPlan
  {
    assert "constructor" in ObjectPrototypeMembers;
  }

  /**
   * The property name `plans[dosha]` looks up when the request's dosha is a
   * JSON value that converts to a string: a string is itself; an array of
   * one element is that element's name (empty for null), an empty array the
   * empty name. None stands for every other value, whose name ("true",
   * "false", digits, "[object Object]", a comma-separated list) is neither a
   * plan name nor an inherited member.
   */
  function PropertyName(dosha: Json): (name: Option<string>)
    ensures dosha.JStr? ==> name == Some(dosha.s)
    ensures dosha == JArr([]) ==> name == Some("")
    ensures dosha.JArr? && |dosha.items| == 1 && dosha.items[0].JStr? ==> name == Some(dosha.items[0].s)
    ensures name.Some? ==> dosha.JStr? || dosha.JArr?
  {
    match dosha
    case JStr(s) => Some(s)
    case JArr(items) =>
      if items == [] then Some("")
      else if |items| == 1 then (if items[0] == JNull then Some("") else PropertyName(items[0]))
      else None
    case _ => None
  }

  /**
   * `getMockPlan(dosha)` for whatever value the route hands over: None when
   * turning the dosha into a property key throws.
   */
  function MockPlanFor(dosha: Json): (plan: Option<Json>)
    ensures plan.Some? <==> ConvertsToString(dosha)
    ensures plan.Some? ==> ValidPlan(plan.value)
    ensures dosha.JStr? ==> plan == Some(GetMockPlan(dosha.s))
  {
    if !ConvertsToString(dosha) then None
    else
      match PropertyName(dosha)
      case Some(name) => Some(GetMockPlan(name))
      case None => Some(GetMockPlan("Vata"))
  }

  /**
   * `generateMealPlan(dosha)`: the plan the promise resolves to (None when
   * it rejects), and whether a completion request was sent.
   */
  datatype MealPlanOutcome = MealPlanOutcome(plan: Option<Json>, providerCalled: bool)

  /**
   * The reply gives a usable plan: content that is a non-empty string and
   * parses after fence stripping (`if (!content) throw ...` rejects "").
   */
  predicate UsableReply(reply: Reply, parse: Parser)
  {
    reply.Content? && reply.text != "" && parse(Strip(reply.text)).Some?
  }

  /**
   * `generateMealPlan(dosha)`. Without a key the mock plan is returned and no
   * request is made. With a key the prompt interpolates the dosha outside the
   * `try`, so a dosha that cannot be turned into a string rejects the promise
   * before any request, as `plans[dosha]` does without a key. Otherwise one
   * request is made; a usable reply yields its parsed value and anything else
   * (a thrown error, missing or empty content, unparsable text) yields the
   * mock plan.
   */
  function GenerateMealPlan(dosha: Json, key: Option<string>, reply: Reply, parse: Parser): (r: MealPlanOutcome)
    ensures r.plan.None? <==> !ConvertsToString(dosha)
    ensures r.providerCalled <==> KeyConfigured(key) && ConvertsToString(dosha)
    ensures !KeyConfigured(key) ==> r.plan == MockPlanFor(dosha)
    ensures r.providerCalled && UsableReply(reply, parse) ==> r.plan == parse(Strip(reply.text))
    ensures !UsableReply(reply, parse) ==> r.plan == MockPlanFor(dosha)
  {
    if !KeyConfigured(key) then MealPlanOutcome(MockPlanFor(dosha), false)
    else if !ConvertsToString(dosha) then MealPlanOutcome(None, false)
    else if UsableReply(reply, parse) then MealPlanOutcome(parse(Strip(reply.text)), true)
    else MealPlanOutcome(MockPlanFor(dosha), true)
  }

  /**
   * The promise rejects exactly for a dosha that cannot be turned into a
   * string; otherwise the plan is the mock plan or the parsed reply.
   */
  lemma MealPlanIsMockOrParsed(dosha: Json, key: Option<string>, reply: Reply, parse: Parser)
    ensures var r := GenerateMealPlan(dosha, key, reply, parse);
            && (r.plan.None? <==> !ConvertsToString(dosha))
            && (r.plan.Some? ==> r.plan == MockPlanFor(dosha) || (reply.Content? && r.plan == parse(Strip(reply.text))))
  {
  }

  /**
   * The route-style normaliser and the meal-plan path agree on every reply
   * except empty content, which JSON.parse rejects anyway.
   */
  lemma UsableMatchesNormalize(reply: Reply, parse: Parser)
    requires RejectsEmpty(parse)
    ensures UsableReply(reply, parse) <==> Normalize(reply, parse).Some?
  {
    if reply.Content? && reply.text == "" {
      assert Strip(reply.text) == "";
    }
  }
}

=== FILE: doshas.dfy ===
/** The three Ayurvedic body types, in the order the quiz's score object lists them. */
module Doshas {

  datatype Dosha = Vata | Pitta | Kapha

  /** The name the application uses in strings and JSON. */
  function Name(d: Dosha): (s: string)
  {
    match d
    case Vata => "Vata"
    case Pitta => "Pitta"
    case Kapha => "Kapha"
  }

  /** Position in the order Vata, Pitta, Kapha. */
  function Rank(d: Dosha): (i: nat)
    ensures i < 3
  {
    match d
    case Vata => 0
    case Pitta => 1
    case Kapha => 2
  }
}

=== FILE: fence.dfy ===
/**
 * The reply normaliser shared by lib/ai.ts and the AI routes:
 * `content.replace(/```json|```/g, "").trim()`.
 *
 * The global regular expression is scanned left to right; at each position
 * the alternative "```json" is tried before "```", a match is deleted and the
 * scan resumes after it, so matches never overlap and the text produced by a
 * deletion is not scanned again. `trim` then removes surrounding whitespace.
 */
module Fence {
  import opened JsStrings

  const Tick: char := '`'
  const JsonFence: string := "```json"
  const PlainFence: string := "```"

  predicate StartsWith(s: string, prefix: string)
  {
    |prefix| <= |s| && s[..|prefix|] == prefix
  }

  predicate NoBacktick(s: string)
  {
    forall i :: 0 <= i < |s| ==> s[i] != Tick
  }

  /** `s.replace(/```json|```/g, "")` */
  function RemoveFences(s: string): (r: string)
    ensures |r| <= |s|
    decreases |s|
  {
    if StartsWith(s, JsonFence) then RemoveFences(s[|JsonFence|..])
    else if StartsWith(s, PlainFence) then RemoveFences(s[|PlainFence|..])
    else if s == [] then []
    else [s[0]] + RemoveFences(s[1..])
  }

  /**
   * `content.replace(/```json|```/g, "").trim()`: never longer than the
   * content, never starting or ending with whitespace, and holding no fence
   * marker anywhere.
   */
  function Strip(content: string): (r: string)
    ensures |r| <= |content|
    ensures r == [] || (!IsWhitespace(r[0]) && !IsWhitespace(r[|r| - 1]))
    ensures !Contains(r, PlainFence)
  {
    NoFenceLeft(content);
    FenceFreeSlice(RemoveFences(content), LeadingWhitespace(RemoveFences(content)),
                   |Trim(RemoveFences(content))|);
    Trim(RemoveFences(content))
  }

  /** A character other than a backtick cannot start a fence, so it is kept. */
  lemma KeepsHead(s: string)
    requires s != [] && s[0] != Tick
    ensures RemoveFences(s) == [s[0]] + RemoveFences(s[1..])
  {
    assert !StartsWith(s, JsonFence);
    assert !StartsWith(s, PlainFence);
  }

  /** A backtick that survives is never followed by two more backticks in the output. */
  lemma KeptTickNotFollowedByTwo(s: string)
    requires s != [] && s[0] == Tick && !StartsWith(s, PlainFence)
    ensures var t := RemoveFences(s[1..]); !(|t| >= 2 && t[0] == Tick && t[1] == Tick)
  {
    var t := s[1..];
    if t == [] {
    } else if t[0] != Tick {
      KeepsHead(t);
    } else {
      // s begins with two backticks, so a third one would have formed a fence.
      assert |t| < 2 || t[1] != Tick;
      assert !StartsWith(t, PlainFence);
      assert !StartsWith(t, JsonFence);
      assert RemoveFences(t) == [t[0]] + RemoveFences(t[1..]);
      if |t| >= 2 {
        KeepsHead(t[1..]);
      }
    }
  }

  /** An occurrence of "```" is three backticks in a row. */
  lemma FenceAt(s: string, j: int)
    ensures OccursAt(s, PlainFence, j) <==>
            0 <= j && j + 3 <= |s| && s[j] == Tick && s[j + 1] == Tick && s[j + 2] == Tick
  {
    if 0 <= j && j + 3 <= |s| {
      assert s[j..j + 3] == [s[j], s[j + 1], s[j + 2]];
    }
  }

  /** Putting one character in front of fence-free text creates a fence only after two backticks. */
  lemma ConsFenceFree(c: char, t: string)
    requires !Contains(t, PlainFence)
    requires !(c == Tick && |t| >= 2 && t[0] == Tick && t[1] == Tick)
    ensures !Contains([c] + t, PlainFence)
  {
    var r := [c] + t;
    forall i | 0 <= i <= |r| - 3
      ensures !OccursAt(r, PlainFence, i)
    {
      FenceAt(r, i);
      if i > 0 {
        FenceAt(t, i - 1);
      }
    }
  }

  /** Fence markers are removed wherever they occur: no "```" is left in the output. */
  lemma {:induction false} NoFenceLeft(s: string)
    ensures !Contains(RemoveFences(s), PlainFence)
    decreases |s|
  {
    if StartsWith(s, JsonFence) {
      NoFenceLeft(s[|JsonFence|..]);
    } else if StartsWith(s, PlainFence) {
      NoFenceLeft(s[|PlainFence|..]);
    } else if s == [] {
    } else {
      assert RemoveFences(s) == [s[0]] + RemoveFences(s[1..]);
      NoFenceLeft(s[1..]);
      if s[0] == Tick {
        KeptTickNotFollowedByTwo(s);
      }
      ConsFenceFree(s[0], RemoveFences(s[1..]));
    }
  }

  /** A slice of a fence-free string is fence-free. */
  lemma FenceFreeSlice(s: string, lo: nat, len: nat)
    requires lo + len <= |s|
    requires !Contains(s, PlainFence)
    ensures !Contains(s[lo..lo + len], PlainFence)
  {
    var u := s[lo..lo + len];
    forall i | 0 <= i <= |u| - 3
      ensures !OccursAt(u, PlainFence, i)
    {
      FenceAt(u, i);
      FenceAt(s, lo + i);
    }
  }

  /** Text without backticks passes through the replacement unchanged. */
  lemma {:induction false} BacktickFreeKept(s: string)
    requires NoBacktick(s)
    ensures RemoveFences(s) == s
    decreases |s|
  {
    if s != [] {
      KeepsHead(s);
      BacktickFreeKept(s[1..]);
    }
  }

  /** A backtick-free prefix is copied and the scan goes on after it. */
  lemma {:induction false} BacktickFreePrefix(a: string, t: string)
    requires NoBacktick(a)
    ensures RemoveFences(a + t) == a + RemoveFences(t)
    decreases |a|
  {
    if a == [] {
      assert a + t == t;
    } else {
      assert (a + t)[0] == a[0];
      KeepsHead(a + t);
      assert (a + t)[1..] == a[1..] + t;
      BacktickFreePrefix(a[1..], t);
      calc {
        RemoveFences(a + t);
        [a[0]] + RemoveFences(a[1..] + t);
        [a[0]] + (a[1..] + RemoveFences(t));
        ([a[0]] + a[1..]) + RemoveFences(t);
        { assert [a[0]] + a[1..] == a; }
        a + RemoveFences(t);
      }
    }
  }

  /** Stripping a string that contains no backtick is the same as trimming it. */
  lemma StripWithoutBackticks(s: string)
    requires NoBacktick(s)
    ensures Strip(s) == Trim(s)
  {
    BacktickFreeKept(s);
  }

  /** A reply wrapped in a ```json ... ``` block yields its trimmed body. */
  lemma StripFencedBody(body: string)
    requires NoBacktick(body)
    ensures Strip(JsonFence + body + PlainFence) == Trim(body)
  {
    var s := JsonFence + body + PlainFence;
    assert StartsWith(s, JsonFence);
    assert s[|JsonFence|..] == body + PlainFence;
    BacktickFreePrefix(body, PlainFence);
    assert StartsWith(PlainFence, PlainFence);
    assert PlainFence[3..] == [];
    assert RemoveFences(s) == body;
  }

  /** A "```json" marker in the middle of the text is deleted too. */
  lemma JsonFenceRemovedAnywhere(a: string, b: string)
    requires NoBacktick(a)
    ensures RemoveFences(a + JsonFence + b) == a + RemoveFences(b)
  {
    var p := JsonFence + b;
    assert a + JsonFence + b == a + p;
    BacktickFreePrefix(a, p);
    assert StartsWith(p, JsonFence);
    assert p[7..] == b;
  }

  /** What the scan does at a bare "```": it deletes "```json" if "json" follows, else "```". */
  lemma PlainFenceHead(b: string)
    ensures StartsWith(b, "json") ==> RemoveFences(PlainFence + b) == RemoveFences(b[4..])
    ensures !StartsWith(b, "json") ==> RemoveFences(PlainFence + b) == RemoveFences(b)
  {
    var p := PlainFence + b;
    if StartsWith(b, "json") {
      assert p[..7] == PlainFence + b[..4];
      assert StartsWith(p, JsonFence);
      assert p[7..] == b[4..];
    } else {
      if |b| >= 4 {
        assert p[..7][3..] == b[..4];
      }
      assert !StartsWith(p, JsonFence);
      assert p[..3] == PlainFence;
      assert p[3..] == b;
    }
  }

  /**
   * A bare "```" in the middle of the text is deleted too, unless the text
   * after it begins with "json": then the longer marker "```json" matches.
   */
  lemma PlainFenceRemovedAnywhere(a: string, b: string)
    requires NoBacktick(a)
    ensures !StartsWith(b, "json") ==> RemoveFences(a + PlainFence + b) == a + RemoveFences(b)
    ensures StartsWith(b, "json") ==> RemoveFences(a + PlainFence + b) == a + RemoveFences(b[4..])
  {
    assert a + PlainFence + b == a + (PlainFence + b);
    BacktickFreePrefix(a, PlainFence + b);
    PlainFenceHead(b);
  }

  /** Text holding no "```" has nothing for the expression to match. */
  lemma {:induction false} FenceFreeKept(s: string)
    requires !Contains(s, PlainFence)
    ensures RemoveFences(s) == s
    decreases |s|
  {
    if s != [] {
      assert !OccursAt(s, PlainFence, 0);
      assert !StartsWith(s, PlainFence);
      assert !StartsWith(s, JsonFence);
      assert !Contains(s[1..], PlainFence) by {
        if Contains(s[1..], PlainFence) {
          var i :| 0 <= i <= |s[1..]| - 3 && OccursAt(s[1..], PlainFence, i);
          assert s[1..][i..i + 3] == s[i + 1..i + 4];
          assert OccursAt(s, PlainFence, i + 1);
        }
      }
      FenceFreeKept(s[1..]);
    }
  }

  /** Normalising an already normalised reply changes nothing. */
  lemma StripIdempotent(s: string)
    ensures Strip(Strip(s)) == Strip(s)
  {
    var u := Strip(s);
    FenceFreeKept(u);
    TrimKeepsTrimmed(u);
  }
}

=== FILE: js_strings.dfy ===
/**
 * The string built-ins the core relies on: `String.prototype.trim`,
 * `toUpperCase`/`toLowerCase` (restricted to ASCII letters) and `includes`.
 */
module JsStrings {

  /**
   * The characters `trim` removes: ECMAScript WhiteSpace and LineTerminator
   * (tab, line feed, vertical tab, form feed, carriage return, space, the
   * no-break and byte-order-mark characters and the Unicode space separators).
   */
  predicate IsWhitespace(c: char)
  {
    || c == '\t' || c == '\n' || c == '\U{000B}' || c == '\U{000C}' || c == '\r'
    || c == ' ' || c == '\U{00A0}' || c == '\U{1680}'
    || ('\U{2000}' <= c <= '\U{200A}')
    || c == '\U{2028}' || c == '\U{2029}' || c == '\U{202F}' || c == '\U{205F}'
    || c == '\U{3000}' || c == '\U{FEFF}'
  }

  /** Number of whitespace characters at the start of `s`. */
  function LeadingWhitespace(s: string): (n: nat)
    ensures n <= |s|
    ensures forall k :: 0 <= k < n ==> IsWhitespace(s[k])
    ensures n < |s| ==> !IsWhitespace(s[n])
  {
    if s == [] || !IsWhitespace(s[0]) then 0 else 1 + LeadingWhitespace(s[1..])
  }

  /** Number of whitespace characters at the end of `s`. */
  function TrailingWhitespace(s: string): (n: nat)
    ensures n <= |s|
    ensures forall k :: |s| - n <= k < |s| ==> IsWhitespace(s[k])
    ensures n < |s| ==> !IsWhitespace(s[|s| - n - 1])
  {
    if s == [] || !IsWhitespace(s[|s| - 1]) then 0
    else 1 + TrailingWhitespace(s[..|s| - 1])
  }

  /**
   * `s.trim()`: the longest slice of `s` that neither starts nor ends with
   * whitespace, everything cut on either side being whitespace.
   */
  function Trim(s: string): (r: string)
    ensures |r| <= |s|
    ensures r == [] || (!IsWhitespace(r[0]) && !IsWhitespace(r[|r| - 1]))
    ensures LeadingWhitespace(s) + |r| <= |s|
    ensures r == s[LeadingWhitespace(s)..LeadingWhitespace(s) + |r|]
    ensures forall k :: 0 <= k < LeadingWhitespace(s) ==> IsWhitespace(s[k])
    ensures forall k :: LeadingWhitespace(s) + |r| <= k < |s| ==> IsWhitespace(s[k])
  {
    var t := s[LeadingWhitespace(s)..];
    t[..|t| - TrailingWhitespace(t)]
  }

  /** A string that already neither starts nor ends with whitespace is left as it is. */
  lemma TrimKeepsTrimmed(s: string)
    requires s == [] || (!IsWhitespace(s[0]) && !IsWhitespace(s[|s| - 1]))
    ensures Trim(s) == s
  {
    if s != [] {
      assert LeadingWhitespace(s) == 0;
      assert TrailingWhitespace(s) == 0;
    }
  }

  /** Trimming twice is trimming once. */
  lemma TrimIdempotent(s: string)
    ensures Trim(Trim(s)) == Trim(s)
  {
    TrimKeepsTrimmed(Trim(s));
  }

  /** `c.toUpperCase()` on an ASCII letter; every other character is kept. */
  function UpperChar(c: char): (u: char)
    ensures 'a' <= c <= 'z' ==> u as int == c as int - 32
    ensures !('a' <= c <= 'z') ==> u == c
  {
    if 'a' <= c <= 'z' then (c as int - 32) as char else c
  }

  /** `c.toLowerCase()` on an ASCII letter; every other character is kept. */
  function LowerChar(c: char): (l: char)
    ensures 'A' <= c <= 'Z' ==> l as int == c as int + 32
    ensures !('A' <= c <= 'Z') ==> l == c
  {
    if 'A' <= c <= 'Z' then (c as int + 32) as char else c
  }

  /** `s.toUpperCase()`, letter by letter, for ASCII letters. */
  function Upper(s: string): (r: string)
    ensures |r| == |s|
    ensures forall k :: 0 <= k < |s| ==> r[k] == UpperChar(s[k])
  {
    seq(|s|, k requires 0 <= k < |s| => UpperChar(s[k]))
  }

  /** `s.toLowerCase()`, letter by letter, for ASCII letters. */
  function Lower(s: string): (r: string)
    ensures |r| == |s|
    ensures forall k :: 0 <= k < |s| ==> r[k] == LowerChar(s[k])
  {
    seq(|s|, k requires 0 <= k < |s| => LowerChar(s[k]))
  }

  lemma UpperIdempotent(s: string)
    ensures Upper(Upper(s)) == Upper(s)
    ensures forall k :: 0 <= k < |s| ==> !('a' <= Upper(s)[k] <= 'z')
  {
  }

  /** `needle` occurs in `hay` starting at index `i`. */
  predicate OccursAt(hay: string, needle: string, i: int)
  {
    0 <= i && i + |needle| <= |hay| && hay[i..i + |needle|] == needle
  }

  /** `hay.includes(needle)`. */
  predicate Contains(hay: string, needle: string)
  {
    exists i :: 0 <= i <= |hay| - |needle| && OccursAt(hay, needle, i)
  }

  /** Every string includes the empty string. */
  lemma ContainsEmpty(hay: string)
    ensures Contains(hay, "")
  {
    assert OccursAt(hay, "", 0);
  }
}

=== FILE: js_values.dfy ===
/**
 * The JavaScript values the route handlers read and write: JSON documents,
 * the request body that `await request.json()` yields, property reads with
 * JavaScript truthiness, and the `NextResponse.json(body, { status })` reply.
 */
module JsValues {

  datatype Option<+T> = None | Some(value: T)

  /** A JSON document as `JSON.parse` produces it and `NextResponse.json` serialises it. */
  datatype Json =
    | JNull
    | JBool(b: bool)
    | JNum(n: real)
    | JStr(s: string)
    | JArr(items: seq<Json>)
    | JObj(fields: seq<(string, Json)>)

  /**
   * Reading `o[key]` from an object's own fields. When a key occurs twice the
   * later binding wins, as it does for an object built by JSON.parse.
   * `None` stands for `undefined`.
   */
  function Lookup(fields: seq<(string, Json)>, key: string): (r: Option<Json>)
    ensures r.None? <==> forall i :: 0 <= i < |fields| ==> fields[i].0 != key
    ensures r.Some? ==> exists i :: 0 <= i < |fields| && fields[i] == (key, r.value) &&
                         forall j :: i < j < |fields| ==> fields[j].0 != key
  {
    if fields == [] then None
    else if fields[|fields| - 1].0 == key then Some(fields[|fields| - 1].1)
    else Lookup(fields[..|fields| - 1], key)
  }

  /**
   * `v.key` for a JSON value other than null: only objects carry the field
   * names the handlers ask for, so every other value yields `undefined`.
   */
  function Prop(v: Json, key: string): (r: Option<Json>)
    ensures r.Some? ==> v.JObj?
  {
    if v.JObj? then Lookup(v.fields, key) else None
  }

  /** `o[key]` is a string. */
  predicate HasString(o: Json, key: string)
  {
    Prop(o, key).Some? && Prop(o, key).value.JStr?
  }

  /** JavaScript truthiness of a property value (`!x` is its negation). */
  predicate Truthy(v: Option<Json>)
  {
    match v
    case None => false
    case Some(JNull) => false
    case Some(JBool(b)) => b
    case Some(JNum(n)) => n != 0.0
    case Some(JStr(s)) => s != ""
    case Some(_) => true
  }

  /** What `await request.json()` gives: a JSON document, or a thrown SyntaxError. */
  datatype RequestBody = Unreadable | Parsed(value: Json)

  /**
   * `const { a, b } = await request.json()` completes exactly when the body
   * parses and is not `null` (destructuring null throws a TypeError).
   */
  predicate Destructurable(req: RequestBody)
  {
    req.Parsed? && req.value != JNull
  }

  /** The value bound to `key` by the destructuring, `undefined` when absent. */
  function Field(req: RequestBody, key: string): (r: Option<Json>)
    ensures r.Some? ==> Destructurable(req)
  {
    if Destructurable(req) then Prop(req.value, key) else None
  }

  /**
   * The falsy values are exactly undefined, null, false, 0 and "": every
   * object and array, even an empty one, and every other string is truthy.
   */
  lemma TruthyExactly(v: Option<Json>)
    ensures Truthy(v) <==> v.Some? && v.value != JNull && v.value != JBool(false) &&
                           v.value != JNum(0.0) && v.value != JStr("")
    ensures Truthy(Some(JObj([]))) && Truthy(Some(JArr([]))) && Truthy(Some(JStr("0")))
  {
  }

  /**
   * Destructuring throws for an unreadable body and for `null`; any other
   * document destructures, and a field it lacks is `undefined`.
   */
  lemma Destructuring(key: string, v: Json, s: string)
    ensures !Destructurable(Unreadable) && !Destructurable(Parsed(JNull))
    ensures Field(Parsed(JObj([(key, v)])), key) == Some(v)
    ensures Field(Parsed(JObj([])), key) == None
    ensures Destructurable(Parsed(JStr(s))) && Field(Parsed(JStr(s)), key) == None
  {
    LookupUnique([(key, v)], 0, key);
  }

  /**
   * `String(v)`, a template literal's `${v}` and a computed property key
   * `o[v]` complete without throwing. A parsed object's own "toString" member
   * is never callable, so conversion falls back to `valueOf`, which yields no
   * primitive: an object with its own "toString" throws a TypeError, and so
   * does an array holding one at any depth (`join` converts every element).
   * Every other JSON value converts.
   */
  predicate ConvertsToString(v: Json)
  {
    match v
    case JObj(fields) => Lookup(fields, "toString").None?
    case JArr(items) => forall x | x in items :: ConvertsToString(x)
    case _ => true
  }

  /** `{"toString": 0}` and `[{"toString": 0}]` cannot be turned into strings; strings, `{}` and `{"valueOf": 0}` can. */
  lemma OwnToStringThrows(s: string)
    ensures !ConvertsToString(JObj([("toString", JNum(0.0))]))
    ensures !ConvertsToString(JArr([JStr(s), JObj([("toString", JNum(0.0))])]))
    ensures ConvertsToString(JStr(s)) && ConvertsToString(JObj([]))
    ensures ConvertsToString(JObj([("valueOf", JNum(0.0))]))
  {
    var bad := JObj([("toString", JNum(0.0))]);
    LookupUnique(bad.fields, 0, "toString");
    assert bad in [JStr(s), bad];
  }

  /** A reply built by `NextResponse.json(body, { status })`. */
  datatype Response = Response(status: int, body: Json)

  function Ok(body: Json): Response
  {
    Response(200, body)
  }

  /** The `{ error: message }` replies every handler uses for 400 and 500. */
  function Error(status: int, message: string): Response
  {
    Response(status, JObj([("error", JStr(message))]))
  }

  /** A key bound exactly once is read back as its value. */
  lemma LookupUnique(fields: seq<(string, Json)>, i: nat, key: string)
    requires i < |fields| && fields[i].0 == key
    requires forall j :: 0 <= j < |fields| && j != i ==> fields[j].0 != key
    ensures Lookup(fields, key) == Some(fields[i].1)
  {
  }
}

=== FILE: library.dfy ===
/**
 * app/library/page.tsx: the ingredient library and its filter, which keeps
 * the items of the chosen category ("All" for any) whose name contains the
 * search text, ignoring case.
 */
module Library {
  import opened JsStrings

  /** A library entry; its colour and icon are presentation only. */
  datatype Item = Item(name: string, category: string, dosha: string, benefit: string, desc: string)

  const Categories: seq<string> := ["All", "Grains", "Herbs", "Fruits", "Dairy"]

  const Jowar := Item("Jowar (Sorghum)", "Grains", "Vata & Kapha",
    "Gluten-free, rich in fiber, and great for heart health.",
    "An ancient grain used for thousands of years in India to make rotis and porridges.")
  const Amla := Item("Amla (Indian Gooseberry)", "Fruits", "All (Tridoshic)",
    "Highest natural source of Vitamin C. Boosts immunity.",
    "Revered as a 'Rasayana' or rejuvenator in Ayurveda for skin and hair.")
  const Ashwagandha := Item("Ashwagandha", "Herbs", "Vata & Kapha",
    "Reduces stress and anxiety. Improves strength.",
    "Known as 'Indian Ginseng', it helps the body adapt to stress.")
  const GirCowGhee := Item("A2 Gir Cow Ghee", "Dairy", "Vata & Pitta",
    "Enhances Ojas (vitality). Good for brain health.",
    "Pure clarified butter made using the traditional Bilona method.")
  const Bajra := Item("Bajra (Pearl Millet)", "Grains", "Kapha",
    "Heating quality, perfect for winters. High in iron.",
    "A hardy grain that grows in arid regions of Rajasthan and Gujarat.")
  const Brahmi := Item("Brahmi", "Herbs", "All (Tridoshic)",
    "Sharpens memory and concentration.",
    "A creeping herb used to balance the nervous system and mind.")

  const LibraryItems: seq<Item> := [Jowar, Amla, Ashwagandha, GirCowGhee, Bajra, Brahmi]

  /**
   * The filter's test: `filter === "All" || item.category === filter`, and
   * `item.name.toLowerCase().includes(search.toLowerCase())`.
   */
  predicate Matches(item: Item, filter: string, search: string)
  {
    (filter == "All" || item.category == filter) && Contains(Lower(item.name), Lower(search))
  }

  /** `a` is `b` with some elements left out, in the same order. */
  predicate IsSubsequence(a: seq<Item>, b: seq<Item>)
    decreases |b|
  {
    a == [] || (b != [] && ((a[0] == b[0] && IsSubsequence(a[1..], b[1..])) || IsSubsequence(a, b[1..])))
  }

  /**
   * `libraryItems.filter(...)`: the matching items in library order; an item
   * is kept exactly when it matches.
   */
  function FilterItems(items: seq<Item>, filter: string, search: string): (r: seq<Item>)
    ensures IsSubsequence(r, items)
    ensures forall x :: x in r <==> x in items && Matches(x, filter, search)
  {
    if items == [] then []
    else if Matches(items[0], filter, search) then [items[0]] + FilterItems(items[1..], filter, search)
    else FilterItems(items[1..], filter, search)
  }

  /** The filter keeps every copy of a matching item and no copy of any other. */
  lemma {:induction false} FilterKeepsMultiplicity(items: seq<Item>, filter: string, search: string, x: Item)
    ensures multiset(FilterItems(items, filter, search))[x] == if Matches(x, filter, search) then multiset(items)[x] else 0
  {
    if items != [] {
      FilterKeepsMultiplicity(items[1..], filter, search, x);
      assert items == [items[0]] + items[1..];
      assert multiset(items) == multiset([items[0]]) + multiset(items[1..]);
      if Matches(items[0], filter, search) {
        var rest := FilterItems(items[1..], filter, search);
        assert multiset([items[0]] + rest) == multiset([items[0]]) + multiset(rest);
      }
    }
  }

  /** With filter "All" and an empty search every item is shown, in order. */
  lemma {:induction false} ShowAll(items: seq<Item>)
    ensures FilterItems(items, "All", "") == items
  {
    if items != [] {
      ContainsEmpty(Lower(items[0].name));
      assert Lower("") == "";
      ShowAll(items[1..]);
    }
  }

  /** Lower-casing after upper-casing is lower-casing. */
  lemma LowerOfUpper(s: string)
    ensures Lower(Upper(s)) == Lower(s)
  {
  }

  /** The search ignores the case of the search text and of the name. */
  lemma SearchIgnoresCase(item: Item, filter: string, search: string)
    ensures Matches(item, filter, Upper(search)) == Matches(item, filter, search)
    ensures Matches(item.(name := Upper(item.name)), filter, search) == Matches(item, filter, search)
  {
    LowerOfUpper(search);
    LowerOfUpper(item.name);
  }

  /** Only the name and category take part: the dosha, benefit and description do not. */
  lemma {:induction false} FilterIgnoresDescriptions(items: seq<Item>, others: seq<Item>, filter: string, search: string)
    requires |others| == |items|
    requires forall i :: 0 <= i < |items| ==> others[i].name == items[i].name && others[i].category == items[i].category
    ensures |FilterItems(others, filter, search)| == |FilterItems(items, filter, search)|
    ensures forall i :: 0 <= i < |FilterItems(items, filter, search)| ==>
              FilterItems(others, filter, search)[i].name == FilterItems(items, filter, search)[i].name
  {
    if items != [] {
      FilterIgnoresDescriptions(items[1..], others[1..], filter, search);
    }
  }

  /** Every item sits under one of the category tabs other than "All", so each tab choice is a filter value. */
  lemma EveryItemHasATab()
    ensures Categories[0] == "All"
    ensures forall x :: x in LibraryItems ==> x.category in Categories[1..]
  {
  }

  /** The "Herbs" tab with no search shows Ashwagandha and Brahmi, in that order. */
  lemma HerbsTab()
    ensures FilterItems(LibraryItems, "Herbs", "") == [Ashwagandha, Brahmi]
  {
    assert Lower("") == "";
    ContainsEmpty(Lower(Ashwagandha.name));
    ContainsEmpty(Lower(Brahmi.name));
    var l := LibraryItems;
    assert l[1..] == [Amla, Ashwagandha, GirCowGhee, Bajra, Brahmi];
    assert l[2..] == [Ashwagandha, GirCowGhee, Bajra, Brahmi];
    assert l[3..] == [GirCowGhee, Bajra, Brahmi];
    assert l[4..] == [Bajra, Brahmi];
    assert l[5..] == [Brahmi];
    assert l[6..] == [];
    assert FilterItems(l[5..], "Herbs", "") == [Brahmi];
    assert FilterItems(l[3..], "Herbs", "") == [Brahmi];
    assert FilterItems(l[2..], "Herbs", "") == [Ashwagandha, Brahmi];
  }
}

=== FILE: provider.dfy ===
/**
 * The completion provider as the handlers see it: whether an API key is
 * configured, what the single chat-completion request came back with, and
 * `JSON.parse`, which is left abstract.
 */
module Provider {
  import opened JsValues
  import opened Fence

  /**
   * The outcome of the completion request and of reading
   * `data.choices?.[0]?.message?.content` from its JSON reply.
   */
  datatype Reply =
    | Threw                  // fetch rejected, the reply was not JSON, or the content was not a string
    | NoContent              // the content path is undefined or null
    | Content(text: string)  // the message content

  /** `JSON.parse` on a string: the document, or None when it throws. */
  type Parser = string -> Option<Json>

  /** `OPENROUTER_API_KEY` as read from the environment; `!key` holds for undefined and for "". */
  predicate KeyConfigured(key: Option<string>)
  {
    key.Some? && key.value != ""
  }

  /** JSON.parse never accepts the empty string. */
  predicate RejectsEmpty(parse: Parser)
  {
    parse("") == None
  }

  /**
   * `JSON.parse(content.replace(/```json|```/g, "").trim())` as the routes
   * write it, with no check on the content first: None exactly when some
   * step throws (`undefined.replace` included).
   */
  function Normalize(reply: Reply, parse: Parser): (r: Option<Json>)
    ensures r.Some? ==> reply.Content? && parse(Strip(reply.text)) == r
    ensures reply.Content? ==> r == parse(Strip(reply.text))
  {
    match reply
    case Content(text) => parse(Strip(text))
    case _ => None
  }
}

=== FILE: quiz.dfy ===
/**
 * app/prakriti-test/page.tsx: a five-question quiz whose answers are kept in
 * a record keyed by question id. The last "Next" tallies the answers per
 * dosha and picks the first strict maximum in the order Vata, Pitta, Kapha;
 * the result page can then fetch a meal plan or reset the quiz.
 */
module PrakritiQuiz {
  import opened JsValues
  import opened Doshas

  /** One answer option: its caption and the dosha it counts for. */
  datatype Choice = Choice(caption: string, dosha: Dosha)

  datatype Question = Question(id: int, text: string, options: seq<Choice>)

  const Questions: seq<Question> := [
    Question(1, "How would you describe your natural body frame?", [
      Choice("Thin, lean, I struggle to gain weight", Vata),
      Choice("Medium build, athletic, easy to gain muscle", Pitta),
      Choice("Broad, solid, I gain weight easily", Kapha)]),
    Question(2, "What is your skin typically like?", [
      Choice("Dry, rough, or cold to touch", Vata),
      Choice("Sensitive, reddish, or oily T-zone", Pitta),
      Choice("Smooth, thick, soft, and cool", Kapha)]),
    Question(3, "How is your appetite and digestion?", [
      Choice("Irregular – sometimes hungry, sometimes not", Vata),
      Choice("Strong, sharp – I get 'hangry' if I miss a meal", Pitta),
      Choice("Slow but steady – I can skip meals easily", Kapha)]),
    Question(4, "How do you usually sleep?", [
      Choice("Light sleeper, I wake up often", Vata),
      Choice("Sound sleep, about 6-7 hours is enough", Pitta),
      Choice("Deep, heavy sleep, I love sleeping in", Kapha)]),
    Question(5, "When under stress, how do you react?", [
      Choice("I get anxious, worried, or fearful", Vata),
      Choice("I get irritable, angry, or critical", Pitta),
      Choice("I withdraw, get quiet, or stubborn", Kapha)])
  ]

  /** The question ids in table order. */
  function Ids(qs: seq<Question>): (ids: seq<int>)
    ensures |ids| == |qs|
    ensures forall i :: 0 <= i < |qs| ==> ids[i] == qs[i].id
  {
    seq(|qs|, i requires 0 <= i < |qs| => qs[i].id)
  }

  predicate Distinct(ids: seq<int>)
  {
    forall i, j :: 0 <= i < j < |ids| ==> ids[i] != ids[j]
  }

  /** Every question offers one option per dosha, in the order Vata, Pitta, Kapha, and the ids are 1 to 5. */
  lemma QuestionTable()
    ensures Ids(Questions) == [1, 2, 3, 4, 5]
    ensures Distinct(Ids(Questions))
    ensures forall q :: q in Questions ==>
              (|q.options| == 3 && q.options[0].dosha == Vata &&
               q.options[1].dosha == Pitta && q.options[2].dosha == Kapha)
  {
  }

  /**
   * `Object.values(answers)`: a record's integer keys are enumerated in
   * ascending order, and the only keys ever written are the question ids,
   * so the values come in question order.
   */
  function ValuesFor(ids: seq<int>, answers: map<int, Dosha>): (values: seq<Dosha>)
    ensures |values| <= |ids|
    ensures forall d :: d in values ==> d in answers.Values
  {
    if ids == [] then []
    else (if ids[0] in answers then [answers[ids[0]]] else []) + ValuesFor(ids[1..], answers)
  }

  /** One value per answered question. */
  lemma {:induction false} ValuesForLength(ids: seq<int>, answers: map<int, Dosha>)
    requires Distinct(ids)
    ensures |ValuesFor(ids, answers)| == |answers.Keys * (set k | k in ids)|
  {
    if ids == [] {
      assert answers.Keys * (set k | k in ids) == {};
    } else {
      var rest := ids[1..];
      assert Distinct(rest);
      ValuesForLength(rest, answers);
      var tail := answers.Keys * (set k | k in rest);
      assert ids[0] !in tail;
      if ids[0] in answers {
        assert answers.Keys * (set k | k in ids) == tail + {ids[0]};
      } else {
        assert answers.Keys * (set k | k in ids) == tail;
      }
    }
  }

  /** The ids in `ids` answered with `d`. */
  function Picked(ids: seq<int>, answers: map<int, Dosha>, d: Dosha): set<int>
  {
    set k | k in ids && k in answers && answers[k] == d
  }

  /** Peeling the first id off splits the picked set. */
  lemma PickedSplit(ids: seq<int>, answers: map<int, Dosha>, d: Dosha)
    requires ids != [] && Distinct(ids)
    ensures ids[0] in answers && answers[ids[0]] == d ==>
              |Picked(ids, answers, d)| == |Picked(ids[1..], answers, d)| + 1
    ensures !(ids[0] in answers && answers[ids[0]] == d) ==>
              |Picked(ids, answers, d)| == |Picked(ids[1..], answers, d)|
  {
    var tail := Picked(ids[1..], answers, d);
    assert ids[0] !in tail;
    if ids[0] in answers && answers[ids[0]] == d {
      assert Picked(ids, answers, d) == tail + {ids[0]};
    } else {
      assert Picked(ids, answers, d) == tail;
    }
  }

  /**
   * Each dosha occurs among the values as often as distinct ids are answered
   * with it: the values are the answer map's, one per answered id.
   */
  lemma {:induction false} ValuesForMultiplicity(ids: seq<int>, answers: map<int, Dosha>, d: Dosha)
    requires Distinct(ids)
    ensures multiset(ValuesFor(ids, answers))[d] == |Picked(ids, answers, d)|
  {
    if ids == [] {
      assert Picked(ids, answers, d) == {};
    } else {
      var rest := ids[1..];
      assert Distinct(rest);
      ValuesForMultiplicity(rest, answers, d);
      PickedSplit(ids, answers, d);
      var head := if ids[0] in answers then [answers[ids[0]]] else [];
      assert ValuesFor(ids, answers) == head + ValuesFor(rest, answers);
      assert multiset(ValuesFor(ids, answers)) == multiset(head) + multiset(ValuesFor(rest, answers));
    }
  }

  /** On the question ids, the picked set is every answer with `d`. */
  lemma PickedAnswers(answers: map<int, Dosha>, d: Dosha)
    requires answers.Keys <= (set k | k in Ids(Questions))
    ensures Picked(Ids(Questions), answers, d) == set k | k in answers && answers[k] == d
  {
  }

  /**
   * `Object.values(answers)` for the quiz: when only question ids are
   * answered, one value per answer, each dosha as often as it was chosen.
   */
  function AnswerValues(answers: map<int, Dosha>): (values: seq<Dosha>)
    ensures answers.Keys <= (set k | k in Ids(Questions)) ==>
              && |values| == |answers|
              && forall d :: multiset(values)[d] == |set k | k in answers && answers[k] == d|
  {
    QuestionTable();
    ValuesForLength(Ids(Questions), answers);
    assert answers.Keys <= (set k | k in Ids(Questions)) ==> answers.Keys * (set k | k in Ids(Questions)) == answers.Keys;
    forall d | answers.Keys <= (set k | k in Ids(Questions))
      ensures multiset(ValuesFor(Ids(Questions), answers))[d] == |set k | k in answers && answers[k] == d|
    {
      ValuesForMultiplicity(Ids(Questions), answers, d);
      PickedAnswers(answers, d);
    }
    ValuesFor(Ids(Questions), answers)
  }

  /** The `{ Vata, Pitta, Kapha }` score object. */
  datatype Scores = Scores(vata: nat, pitta: nat, kapha: nat)

  function ScoreOf(s: Scores, d: Dosha): nat
  {
    match d
    case Vata => s.vata
    case Pitta => s.pitta
    case Kapha => s.kapha
  }

  /** `scores[d]++` */
  function Bump(s: Scores, d: Dosha): (t: Scores)
    ensures ScoreOf(t, d) == ScoreOf(s, d) + 1
    ensures forall e :: e != d ==> ScoreOf(t, e) == ScoreOf(s, e)
  {
    match d
    case Vata => s.(vata := s.vata + 1)
    case Pitta => s.(pitta := s.pitta + 1)
    case Kapha => s.(kapha := s.kapha + 1)
  }

  /** How many answers name the dosha. */
  function Count(values: seq<Dosha>, d: Dosha): nat
  {
    if values == [] then 0
    else Count(values[..|values| - 1], d) + (if values[|values| - 1] == d then 1 else 0)
  }

  /** The count is the multiplicity: it depends on which answers were given, not on their order. */
  lemma {:induction false} CountIsMultiplicity(values: seq<Dosha>, d: Dosha)
    ensures Count(values, d) == multiset(values)[d]
  {
    if values != [] {
      var init := values[..|values| - 1];
      CountIsMultiplicity(init, d);
      assert values == init + [values[|values| - 1]];
    }
  }

  /** The three counts add up to the number of answers. */
  lemma {:induction false} CountsSum(values: seq<Dosha>)
    ensures Count(values, Vata) + Count(values, Pitta) + Count(values, Kapha) == |values|
  {
    if values != [] {
      CountsSum(values[..|values| - 1]);
    }
  }

  function Tally(values: seq<Dosha>): Scores
  {
    Scores(Count(values, Vata), Count(values, Pitta), Count(values, Kapha))
  }

  /** `Object.values(answers).forEach((d) => scores[d]++)` from all-zero scores. */
  method TallyScores(values: seq<Dosha>) returns (scores: Scores)
    ensures forall d :: ScoreOf(scores, d) == multiset(values)[d]
    ensures scores.vata + scores.pitta + scores.kapha == |values|
  {
    scores := Scores(0, 0, 0);
    for i := 0 to |values|
      invariant forall d :: ScoreOf(scores, d) == Count(values[..i], d)
    {
      assert values[..i + 1][..i] == values[..i];
      scores := Bump(scores, values[i]);
    }
    assert values[..|values|] == values;
    forall d ensures ScoreOf(scores, d) == multiset(values)[d] {
      CountIsMultiplicity(values, d);
    }
    CountsSum(values);
  }

  /** `Object.entries(scores)`: insertion order Vata, Pitta, Kapha. */
  function Entries(s: Scores): (e: seq<(Dosha, nat)>)
    ensures |e| == 3
    ensures forall k :: 0 <= k < 3 ==> Rank(e[k].0) == k && e[k].1 == ScoreOf(s, e[k].0)
  {
    [(Vata, s.vata), (Pitta, s.pitta), (Kapha, s.kapha)]
  }

  /**
   * `entries.reduce((a, b) => b[1] > a[1] ? b : a)` with no initial value:
   * an entry with the largest count, and no earlier entry has that count
   * (a later entry replaces the accumulator only when strictly larger).
   */
  function Reduce(entries: seq<(Dosha, nat)>): (best: (Dosha, nat))
    requires |entries| > 0
    ensures forall j :: 0 <= j < |entries| ==> entries[j].1 <= best.1
    ensures exists k :: 0 <= k < |entries| && entries[k] == best &&
              forall j :: 0 <= j < k ==> entries[j].1 < best.1
  {
    if |entries| == 1 then entries[0]
    else
      var a := Reduce(entries[..|entries| - 1]);
      var b := entries[|entries| - 1];
      if b.1 > a.1 then b else a
  }

  /** The entry the reduce returns carries its dosha's count and is the first maximum. */
  lemma ReduceEntries(s: Scores)
    ensures var b := Reduce(Entries(s));
            && b.1 == ScoreOf(s, b.0)
            && (forall x :: ScoreOf(s, x) <= b.1)
            && (forall x :: Rank(x) < Rank(b.0) ==> ScoreOf(s, x) < b.1)
  {
    var e := Entries(s);
    var b := Reduce(e);
    var k :| 0 <= k < |e| && e[k] == b && forall j :: 0 <= j < k ==> e[j].1 < b.1;
    forall x ensures e[Rank(x)].0 == x {
    }
  }

  /** The dominant dosha: `reduce(...)[0]`. */
  function Dominant(s: Scores): (d: Dosha)
    ensures forall e :: ScoreOf(s, e) <= ScoreOf(s, d)
    ensures forall e :: Rank(e) < Rank(d) ==> ScoreOf(s, e) < ScoreOf(s, d)
  {
    ReduceEntries(s);
    Reduce(Entries(s)).0
  }

  /** The first dosha, in the order Vata, Pitta, Kapha, whose count is not beaten. */
  predicate FirstMaximum(s: Scores, d: Dosha)
  {
    (forall e :: ScoreOf(s, e) <= ScoreOf(s, d)) &&
    (forall e :: Rank(e) < Rank(d) ==> ScoreOf(s, e) < ScoreOf(s, d))
  }

  /** The reduce picks exactly the first maximum, so a tie goes to the earlier dosha. */
  lemma DominantIsFirstMaximum(s: Scores, d: Dosha)
    ensures FirstMaximum(s, d) <==> d == Dominant(s)
  {
    var r := Dominant(s);
    if FirstMaximum(s, d) {
      assert ScoreOf(s, d) == ScoreOf(s, r);
      assert Rank(d) == Rank(r);
    }
  }

  /** Ties between two leading doshas go to the earlier one. */
  lemma TiesGoToEarlier(s: Scores)
    ensures s.vata == s.pitta && s.vata >= s.kapha ==> Dominant(s) == Vata
    ensures s.vata == s.kapha && s.vata >= s.pitta ==> Dominant(s) == Vata
    ensures s.pitta == s.kapha && s.pitta > s.vata ==> Dominant(s) == Pitta
  {
    DominantIsFirstMaximum(s, Vata);
    DominantIsFirstMaximum(s, Pitta);
  }

  /** With no answers every count is zero and the result is Vata. */
  lemma NoAnswersGiveVata()
    ensures Dominant(Tally(AnswerValues(map[]))) == Vata
  {
    NoValues(Ids(Questions));
  }

  /** No answers, no values. */
  lemma {:induction false} NoValues(ids: seq<int>)
    ensures ValuesFor(ids, map[]) == []
  {
    if ids != [] {
      NoValues(ids[1..]);
    }
  }

  /** The three counts of the answers add up to the number of questions answered. */
  lemma TallyCoversAnswers(answers: map<int, Dosha>)
    requires answers.Keys <= set k | k in Ids(Questions)
    ensures var s := Tally(AnswerValues(answers)); s.vata + s.pitta + s.kapha == |answers|
  {
    QuestionTable();
    ValuesForLength(Ids(Questions), answers);
    assert answers.Keys * (set k | k in Ids(Questions)) == answers.Keys;
    CountsSum(AnswerValues(answers));
  }

  /** What the `/api/generate-plan` request came back with, as the page reads it. */
  datatype PlanFetch =
    | FetchFailed          // fetch or `res.json()` threw
    | Fetched(data: Json)  // the parsed response body, whatever its status

  /** The component's state: `currentStep`, `answers`, `result`, `mealPlan`. */
  class PrakritiTest {
    var currentStep: int
    var answers: map<int, Dosha>
    var result: Option<Dosha>
    var mealPlan: Option<Json>  // None is the initial null and an undefined `data.plan`; a null plan is Some(JNull)

    /** The step indexes the question table and only question ids are answered. */
    predicate Valid()
      reads this
    {
      0 <= currentStep < |Questions| && answers.Keys <= set k | k in Ids(Questions)
    }

    /** The initial state `useState(0)`, `useState({})`, `useState(null)`, `useState(null)`. */
    constructor ()
      ensures Valid()
      ensures currentStep == 0 && answers == map[] && result == None && mealPlan == None
    {
      currentStep := 0;
      answers := map[];
      result := None;
      mealPlan := None;
    }

    /**
     * The Next button is enabled when the current question has an answer, so
     * never before some option was picked.
     */
    function NextEnabled(): (enabled: bool)
      requires Valid()
      reads this
      ensures enabled ==> Questions[currentStep].id in answers
      ensures enabled ==> |answers| > 0
    {
      Questions[currentStep].id in answers
    }

    /** `handleSelect(dosha)`: records the dosha under the current question's id. */
    method HandleSelect(dosha: Dosha)
      requires Valid()
      modifies this
      ensures Valid()
      ensures answers == old(answers)[Questions[currentStep].id := dosha]
      ensures NextEnabled()
      ensures forall id :: id in old(answers) && id != Questions[currentStep].id ==>
                id in answers && answers[id] == old(answers)[id]
      ensures currentStep == old(currentStep) && result == old(result) && mealPlan == old(mealPlan)
    {
      answers := answers[Questions[currentStep].id := dosha];
    }

    /** `calculateResult()`: the first maximum of the tally of the answers. */
    method CalculateResult()
      requires Valid()
      modifies this
      ensures Valid()
      ensures result.Some? && FirstMaximum(Tally(AnswerValues(answers)), result.value)
      ensures currentStep == old(currentStep) && answers == old(answers) && mealPlan == old(mealPlan)
    {
      var values := AnswerValues(answers);
      var scores := TallyScores(values);
      assert scores == Tally(values) by {
        forall d ensures ScoreOf(scores, d) == Count(values, d) {
          CountIsMultiplicity(values, d);
        }
      }
      result := Some(Dominant(scores));
      DominantIsFirstMaximum(scores, result.value);
    }

    /** `handleNext()`: the next question, or on the last one the result. */
    method HandleNext()
      requires Valid()
      modifies this
      ensures Valid()
      ensures old(currentStep) < |Questions| - 1 ==>
                currentStep == old(currentStep) + 1 && result == old(result)
      ensures old(currentStep) == |Questions| - 1 ==>
                currentStep == old(currentStep) &&
                result.Some? && FirstMaximum(Tally(AnswerValues(answers)), result.value)
      ensures answers == old(answers) && mealPlan == old(mealPlan)
    {
      if currentStep < |Questions| - 1 {
        currentStep := currentStep + 1;
      } else {
        CalculateResult();
      }
    }

    /**
     * The synchronous part of `fetchMealPlan()`: without a result it returns at
     * once; otherwise the request carrying the result's dosha goes out.
     */
    method StartFetch() returns (requested: Option<Dosha>)
      ensures requested.None? <==> result.None?
      ensures requested.Some? ==> requested.value == result.value
    {
      requested := result;
    }

    /**
     * The part of `fetchMealPlan()` after its two awaits: a parsed body that is
     * not null sets the meal plan to its `plan` field (undefined when absent);
     * a failed request or a null body (whose `data.plan` throws) changes
     * nothing. The result is not looked at again, so the buttons pressed while
     * the request was out do not stop it.
     */
    method FinishFetch(response: PlanFetch)
      requires Valid()
      modifies this
      ensures Valid()
      ensures response.Fetched? && response.data != JNull ==> mealPlan == Prop(response.data, "plan")
      ensures response.FetchFailed? || response.data == JNull ==> mealPlan == old(mealPlan)
      ensures currentStep == old(currentStep) && answers == old(answers) && result == old(result)
    {
      match response
      case FetchFailed =>
      case Fetched(data) =>
        if data != JNull {
          mealPlan := Prop(data, "plan");
        }
    }

    /**
     * `fetchMealPlan()` with nothing pressed while the request is out: stores
     * `data.plan` once a result exists; a failed request changes nothing.
     */
    method FetchMealPlan(response: PlanFetch)
      requires Valid()
      modifies this
      ensures Valid()
      ensures old(result).Some? && response.Fetched? && response.data != JNull ==>
                mealPlan == Prop(response.data, "plan")
      ensures old(result).None? || response.FetchFailed? || response.data == JNull ==>
                mealPlan == old(mealPlan)
      ensures currentStep == old(currentStep) && answers == old(answers) && result == old(result)
    {
      var requested := StartFetch();
      if requested.Some? {
        FinishFetch(response);
      }
    }

    /** The "Retake Quiz" and "Start Over" buttons: back to the initial state. */
    method Retake()
      modifies this
      ensures Valid()
      ensures currentStep == 0 && answers == map[] && result == None && mealPlan == None
    {
      result := None;
      currentStep := 0;
      answers := map[];
      mealPlan := None;
    }

    /**
     * "Retake Quiz" stays enabled while the meal plan request is out (only the
     * fetch button is disabled by `loading`). Pressing it then resets the page,
     * and the late reply still stores its plan: the quiz starts over with no
     * result but with the previous dosha's meal plan in place.
     */
    method RetakeWhileFetching(plan: Json)
      requires Valid() && result.Some?
      modifies this
      ensures Valid()
      ensures currentStep == 0 && answers == map[] && result == None
      ensures mealPlan == Some(plan)
    {
      var requested := StartFetch();
      Retake();
      FinishFetch(Fetched(JObj([("plan", plan)])));
    }
  }
}

=== FILE: ritucharya.dfy ===
/**
 * app/api/ritucharya/route.ts: `GET /api/ritucharya?lat=..&lon=..` reads the
 * current temperature from a weather service and answers with the Ayurvedic
 * season of the current month, its fixed ritual and food advice, and whether
 * the location came from the caller. The month and the weather service's
 * answer are parameters.
 */
module Ritucharya {
  import opened JsValues
  import opened Doshas

  const DefaultLatitude: string := "28.6139"
  const DefaultLongitude: string := "77.2090"

  /** `param || fallback` for a query parameter, which is null when absent. */
  function Coordinate(param: Option<string>, fallback: string): (c: string)
    ensures param.Some? && param.value != "" ==> c == param.value
    ensures param.None? || param.value == "" ==> c == fallback
  {
    match param
    case Some(v) => if v != "" then v else fallback
    case None => fallback
  }

  const WeatherBase: string := "https://api.open-meteo.com/v1/forecast?latitude="
  const LongitudeKey: string := "&longitude="
  const WeatherTail: string := "&current_weather=true"

  /**
   * The weather request the handler sends for the given query parameters:
   * always the open-meteo forecast with current weather, and the coordinates
   * in between.
   */
  function WeatherUrl(lat: Option<string>, lon: Option<string>): (url: string)
    ensures |url| == |WeatherBase| + |Coordinate(lat, DefaultLatitude)| + |LongitudeKey| +
                     |Coordinate(lon, DefaultLongitude)| + |WeatherTail|
    ensures url[..|WeatherBase|] == WeatherBase
    ensures url[|url| - |WeatherTail|..] == WeatherTail
    ensures var latitude := Coordinate(lat, DefaultLatitude);
            && url[|WeatherBase|..|WeatherBase| + |latitude|] == latitude
            && url[|WeatherBase| + |latitude|..|WeatherBase| + |latitude| + |LongitudeKey|] == LongitudeKey
    ensures var longitude := Coordinate(lon, DefaultLongitude);
            url[|url| - |WeatherTail| - |longitude|..|url| - |WeatherTail|] == longitude
  {
    var latitude := Coordinate(lat, DefaultLatitude);
    var longitude := Coordinate(lon, DefaultLongitude);
    var url := WeatherBase + latitude + LongitudeKey + longitude + WeatherTail;
    var a := |WeatherBase|;
    var b := a + |latitude|;
    var c := b + |LongitudeKey|;
    var d := c + |longitude|;
    assert url[..a] == WeatherBase;
    assert url[a..b] == latitude;
    assert url[b..c] == LongitudeKey;
    assert url[c..d] == longitude;
    assert url[d..] == WeatherTail;
    url
  }

  /** `lat ? "detected" : "default"` */
  function LocationTag(lat: Option<string>): (tag: string)
    ensures tag == "detected" <==> lat.Some? && lat.value != ""
    ensures tag == "default" <==> lat.None? || lat.value == ""
  {
    if lat.Some? && lat.value != "" then "detected" else "default"
  }

  /** A season with its ritual and food advice. */
  datatype SeasonAdvice = SeasonAdvice(season: Dosha, ritual: string, food: string)

  const KaphaAdvice: SeasonAdvice := SeasonAdvice(Kapha,
    "Focus on vigorous movement and early rising to clear spring congestion.",
    "Prioritize pungent, bitter, and astringent tastes. Honey and ginger are your allies.")

  const PittaAdvice: SeasonAdvice := SeasonAdvice(Pitta,
    "Seek shade and avoid intense midday heat. Cooling moonlight walks are recommended.",
    "Focus on sweet, bitter, and cooling foods. Coconut water and fresh fruits are ideal.")

  const VataAdvice: SeasonAdvice := SeasonAdvice(Vata,
    "Maintain a strict routine and keep the body warm. Self-massage with warm oil is vital.",
    "Prioritize warm, cooked, unctuous foods. Avoid cold salads and dry snacks.")

  /** The fixed advice pair of each season. */
  function AdviceFor(d: Dosha): (a: SeasonAdvice)
    ensures a.season == d
  {
    match d
    case Kapha => KaphaAdvice
    case Pitta => PittaAdvice
    case Vata => VataAdvice
  }

  /**
   * The season of a zero-based month: February to May is Kapha, June to
   * August is Pitta, and every other month is Vata.
   */
  function SeasonOf(month: int): (a: SeasonAdvice)
    ensures a == AdviceFor(a.season)
    ensures a.season == Kapha <==> 1 <= month <= 4
    ensures a.season == Pitta <==> 5 <= month <= 7
    ensures a.season == Vata <==> month < 1 || month > 7
  {
    if 1 <= month <= 4 then AdviceFor(Kapha)
    else if 5 <= month <= 7 then AdviceFor(Pitta)
    else AdviceFor(Vata)
  }

  /** The months of the year, January first, by season. */
  const MonthSeasons: seq<Dosha> :=
    [Vata, Kapha, Kapha, Kapha, Kapha, Pitta, Pitta, Pitta, Vata, Vata, Vata, Vata]

  /** The classification agrees with the month table for every month 0 to 11. */
  lemma SeasonMatchesTable(month: int)
    requires 0 <= month < 12
    ensures SeasonOf(month) == AdviceFor(MonthSeasons[month])
  {
  }

  /** Different seasons give different advice, so the advice determines the season. */
  lemma AdviceDistinct(a: Dosha, b: Dosha)
    ensures AdviceFor(a).ritual == AdviceFor(b).ritual ==> a == b
    ensures AdviceFor(a).food == AdviceFor(b).food ==> a == b
  {
  }

  /** What the weather request gave: its JSON document, or a failure of fetch or `res.json()`. */
  datatype WeatherReply = WeatherFailed | Weather(data: Json)

  /**
   * `weatherData.current_weather.temperature`: None when reading it throws
   * (no document, or `current_weather` is null or missing); otherwise the
   * temperature, itself None when undefined.
   */
  function Temperature(weather: WeatherReply): (t: Option<Option<Json>>)
    ensures t.Some? <==> weather.Weather? && Readable(Prop(weather.data, "current_weather"))
  {
    match weather
    case WeatherFailed => None
    case Weather(data) =>
      match Prop(data, "current_weather")
      case None => None
      case Some(current) => if current == JNull then None else Some(Prop(current, "temperature"))
  }

  /** A property read on the value succeeds: it is defined and not null. */
  predicate Readable(v: Option<Json>)
  {
    v.Some? && v.value != JNull
  }

  /** The reply body; a temperature that is undefined is left out of the JSON. */
  function SeasonalBody(temperature: Option<Json>, advice: SeasonAdvice, location: string): (body: Json)
    ensures body.JObj? && |body.fields| == if temperature.Some? then 4 else 3
    ensures body.fields[|body.fields| - 3].0 == "season" && body.fields[|body.fields| - 2].0 == "advice"
    ensures body.fields[|body.fields| - 1] == ("location", JStr(location))
    ensures temperature.Some? ==> body.fields[0] == ("temperature", temperature.value)
  {
    var rest := [("season", JStr(Name(advice.season))),
                 ("advice", JObj([("ritual", JStr(advice.ritual)), ("food", JStr(advice.food))])),
                 ("location", JStr(location))];
    match temperature
    case Some(t) => JObj([("temperature", t)] + rest)
    case None => JObj(rest)
  }

  /**
   * `GET /api/ritucharya` in the given month: 500 "Failed to fetch seasonal
   * data" when the temperature cannot be read, otherwise 200 with the
   * season of the month and the location tag.
   */
  function Ritucharya(lat: Option<string>, lon: Option<string>, weather: WeatherReply, month: int): (r: Response)
    ensures r.status == 500 <==> Temperature(weather).None?
    ensures r.status == 500 ==> r == Error(500, "Failed to fetch seasonal data")
    ensures r.status != 500 ==>
              r == Ok(SeasonalBody(Temperature(weather).value, SeasonOf(month), LocationTag(lat)))
  {
    match Temperature(weather)
    case None => Error(500, "Failed to fetch seasonal data")
    case Some(t) => Ok(SeasonalBody(t, SeasonOf(month), LocationTag(lat)))
  }

  /** The season, advice and location in the reply do not depend on the temperature. */
  lemma BodyIgnoresTemperature(t: Option<Json>, advice: SeasonAdvice, location: string)
    ensures var body := SeasonalBody(t, advice, location);
            && Prop(body, "season") == Some(JStr(Name(advice.season)))
            && Prop(body, "advice") == Some(JObj([("ritual", JStr(advice.ritual)), ("food", JStr(advice.food))]))
            && Prop(body, "location") == Some(JStr(location))
            && Prop(body, "temperature") == t
  {
    var f := SeasonalBody(t, advice, location).fields;
    var o := if t.Some? then 1 else 0;
    LookupUnique(f, o, "season");
    LookupUnique(f, o + 1, "advice");
    LookupUnique(f, o + 2, "location");
    if t.Some? {
      LookupUnique(f, 0, "temperature");
    }
  }

  /** Two successful readings in the same month and place give the same season and advice. */
  lemma SeasonIgnoresWeather(lat: Option<string>, lon: Option<string>, w1: WeatherReply, w2: WeatherReply, month: int)
    requires Ritucharya(lat, lon, w1, month).status == 200 && Ritucharya(lat, lon, w2, month).status == 200
    ensures Prop(Ritucharya(lat, lon, w1, month).body, "season") == Prop(Ritucharya(lat, lon, w2, month).body, "season")
    ensures Prop(Ritucharya(lat, lon, w1, month).body, "advice") == Prop(Ritucharya(lat, lon, w2, month).body, "advice")
  {
    BodyIgnoresTemperature(Temperature(w1).value, SeasonOf(month), LocationTag(lat));
    BodyIgnoresTemperature(Temperature(w2).value, SeasonOf(month), LocationTag(lat));
  }

  /** Without query parameters the Delhi coordinates are requested and the location is "default". */
  lemma DefaultsToDelhi()
    ensures WeatherUrl(None, None) == WeatherUrl(Some("28.6139"), Some("77.2090"))
    ensures WeatherUrl(Some(""), Some("")) == WeatherUrl(None, None)
    ensures LocationTag(None) == "default" && LocationTag(Some("")) == "default"
  {
  }
}

=== FILE: routes.dfy ===
/**
 * The AI-backed POST handlers. app/api/generate-plan/route.ts delegates to
 * `generateMealPlan`; app/api/analyze-food, dinacharya, nuskhe and swap-food
 * share one shape: read the request fields, answer 400 when one is falsy,
 * answer a fixed mock tagged `isMock: true` when no key is configured, and
 * otherwise build the prompt, send one completion request and answer its
 * normalised, parsed content. Building the prompt turns the interpolated
 * fields into strings; when that throws, the catch block answers 500 before
 * any request. Unlike lib/ai.ts they have no fallback: a reply without content,
 * or with content that does not parse, ends in the catch block and a 500.
 */
module Routes {
  import opened JsValues
  import opened Fence
  import opened Provider
  import opened Ai
  import opened Doshas

  /** A handler's response, and whether it sent a completion request. */
  datatype Handled = Handled(response: Response, providerCalled: bool)

  /**
   * What distinguishes the four prompted routes: the fields that must be
   * truthy, the fields the prompt interpolates, the two error messages, the
   * reply without a key, and the field the parsed content is wrapped in
   * (None: the content is the body).
   */
  datatype Endpoint = Endpoint(required: seq<string>, prompted: seq<string>,
                               missingMessage: string, failureMessage: string,
                               mockBody: Json, resultKey: Option<string>)

  /** Every required field of the request is truthy. */
  predicate HasRequired(e: Endpoint, req: RequestBody)
  {
    forall i :: 0 <= i < |e.required| ==> Truthy(Field(req, e.required[i]))
  }

  /** The field converts to a string (`undefined` becomes "undefined"). */
  predicate FieldConverts(req: RequestBody, name: string)
  {
    Field(req, name).None? || ConvertsToString(Field(req, name).value)
  }

  /** Building the prompt does not throw: every interpolated field converts. */
  predicate PromptBuilds(e: Endpoint, req: RequestBody)
  {
    forall i :: 0 <= i < |e.prompted| ==> FieldConverts(req, e.prompted[i])
  }

  /** The success body for parsed content. */
  function Wrap(e: Endpoint, v: Json): Json
  {
    match e.resultKey
    case Some(k) => JObj([(k, v)])
    case None => v
  }

  /**
   * One prompted route: 500 when the body cannot be destructured, 400 when a
   * field is missing, the mock when no key is configured, 500 with no request
   * when the prompt cannot be built, and otherwise the wrapped parse of the
   * normalised reply, or 500 when there is none.
   */
  function Serve(e: Endpoint, req: RequestBody, key: Option<string>, reply: Reply, parse: Parser): (h: Handled)
    ensures h.response.status in {200, 400, 500}
    ensures h.response.status == 400 <==> Destructurable(req) && !HasRequired(e, req)
    ensures h.response.status == 400 ==> h.response == Error(400, e.missingMessage)
    ensures h.response.status == 500 ==> h.response == Error(500, e.failureMessage)
    ensures h.providerCalled <==> Destructurable(req) && HasRequired(e, req) && KeyConfigured(key) && PromptBuilds(e, req)
    ensures Destructurable(req) && HasRequired(e, req) && !KeyConfigured(key) ==> h.response == Ok(e.mockBody)
    ensures Destructurable(req) && HasRequired(e, req) && KeyConfigured(key) && !PromptBuilds(e, req) ==>
              h.response == Error(500, e.failureMessage)
    ensures h.providerCalled ==> (h.response.status == 500 <==> Normalize(reply, parse).None?)
    ensures h.providerCalled && Normalize(reply, parse).Some? ==>
              h.response == Ok(Wrap(e, Normalize(reply, parse).value))
  {
    if !Destructurable(req) then Handled(Error(500, e.failureMessage), false)
    else if !HasRequired(e, req) then Handled(Error(400, e.missingMessage), false)
    else if !KeyConfigured(key) then Handled(Ok(e.mockBody), false)
    else if !PromptBuilds(e, req) then Handled(Error(500, e.failureMessage), false)
    else
      match Normalize(reply, parse)
      case None => Handled(Error(500, e.failureMessage), true)
      case Some(v) => Handled(Ok(Wrap(e, v)), true)
  }

  /** A route reads only its required fields: two requests that agree on them get the same answer. */
  lemma ServeReadsOnlyRequired(e: Endpoint, req1: RequestBody, req2: RequestBody,
                               key: Option<string>, reply: Reply, parse: Parser)
    requires Destructurable(req1) && Destructurable(req2)
    requires forall i :: 0 <= i < |e.required| ==> Field(req1, e.required[i]) == Field(req2, e.required[i])
    requires forall i :: 0 <= i < |e.prompted| ==> Field(req1, e.prompted[i]) == Field(req2, e.prompted[i])
    ensures Serve(e, req1, key, reply, parse) == Serve(e, req2, key, reply, parse)
  {
    assert HasRequired(e, req1) == HasRequired(e, req2);
    assert PromptBuilds(e, req1) == PromptBuilds(e, req2);
  }

  // ---------------------------------------------------------------- the mocks

  const MockAnalysis: Json := JObj([
    ("score", JNum(85.0)),
    ("category", JStr("Satvik")),
    ("breakdown", JStr("This meal contains fresh mung dal, steamed rice, and ghee-sautéed vegetables.")),
    ("advice", JStr("Perfectly balanced! Adding a pinch of black pepper would improve digestion further.")),
    ("items", JArr([JStr("Mung Dal"), JStr("Rice"), JStr("Carrots"), JStr("Ghee")]))])

  function Ritual(time: string, activity: string, description: string): Json
  {
    JObj([("time", JStr(time)), ("activity", JStr(activity)), ("description", JStr(description))])
  }

  const MockRituals: seq<Json> := [
    Ritual("05:30 AM", "Brahma Muhurta", "Wake up in the ambrosial hours for peak mental clarity."),
    Ritual("06:00 AM", "Jivha Nirlekhana", "Tongue scraping to remove toxins (Ama) accumulated overnight."),
    Ritual("07:30 AM", "Vyayama", "Physical exercise at 50% capacity to stoke the digestive fire.")]

  const MockRemedy: Json := JObj([
    ("title", JStr("Warm Ginger & Honey Elixir")),
    ("procedure", JStr("Grate 1 inch of fresh ginger, extract the juice, and mix with a spoonful of raw honey.")),
    ("why", JStr("Ginger reduces inflammation while honey coats the throat and boosts immunity.")),
    ("warning", JStr("Avoid if you have high acidity."))])

  const MockSwap: Json := JObj([
    ("name", JStr("Ragi & Vegetable Utopia")),
    ("description", JStr("A crisp finger-millet base topped with farm-fresh bell peppers, tomatoes, and herbs.")),
    ("why", JStr("Satisfies the crunch and savory craving without the refined flour and grease.")),
    ("ingredients", JArr([JStr("Ragi Flour"), JStr("Tomatoes"), JStr("Basil"), JStr("Olive Oil")]))])

  /** `{ [key]: value, isMock: true }` */
  function Tagged(key: string, value: Json): Json
  {
    JObj([(key, value), ("isMock", JBool(true))])
  }

  /** The tagged mock holds the value under its key and `isMock: true`. */
  lemma TaggedFields(key: string, value: Json)
    requires key != "isMock"
    ensures Prop(Tagged(key, value), key) == Some(value)
    ensures Prop(Tagged(key, value), "isMock") == Some(JBool(true))
  {
    LookupUnique(Tagged(key, value).fields, 0, key);
    LookupUnique(Tagged(key, value).fields, 1, "isMock");
  }

  const AnalyzeFoodEndpoint: Endpoint :=
    Endpoint(["image"], [], "Image is required", "Failed to analyze food", Tagged("analysis", MockAnalysis), Some("analysis"))

  const DinacharyaEndpoint: Endpoint :=
    Endpoint(["wakeUpTime", "dosha"], ["dosha", "wakeUpTime"], "Wake up time and Dosha are required", "Failed to build routine",
             Tagged("rituals", JArr(MockRituals)), None)

  const NuskheEndpoint: Endpoint :=
    Endpoint(["symptom"], ["symptom"], "Symptom is required", "Failed to find a remedy", Tagged("remedy", MockRemedy), Some("remedy"))

  const SwapFoodEndpoint: Endpoint :=
    Endpoint(["craving"], ["craving"], "Craving is required", "Failed to find a swap", Tagged("swap", MockSwap), Some("swap"))

  // --------------------------------------------------------------- the routes

  /** `POST /api/analyze-food` */
  function AnalyzeFood(req: RequestBody, key: Option<string>, reply: Reply, parse: Parser): (h: Handled)
    ensures Destructurable(req) && !Truthy(Field(req, "image")) ==>
              h == Handled(Error(400, "Image is required"), false)
    ensures Truthy(Field(req, "image")) && !KeyConfigured(key) ==>
              h == Handled(Ok(Tagged("analysis", MockAnalysis)), false)
    ensures Truthy(Field(req, "image")) && KeyConfigured(key) ==>
              && h.providerCalled
              && (Normalize(reply, parse).Some? ==> h.response == Ok(JObj([("analysis", Normalize(reply, parse).value)])))
              && (Normalize(reply, parse).None? ==> h.response == Error(500, "Failed to analyze food"))
    ensures !Destructurable(req) ==> h == Handled(Error(500, "Failed to analyze food"), false)
  {
    assert HasRequired(AnalyzeFoodEndpoint, req) <==> Truthy(Field(req, "image")) by {
      assert AnalyzeFoodEndpoint.required[0] == "image";
    }
    assert PromptBuilds(AnalyzeFoodEndpoint, req);
    Serve(AnalyzeFoodEndpoint, req, key, reply, parse)
  }

  /** `POST /api/dinacharya`: the parsed content itself is the body. */
  function Dinacharya(req: RequestBody, key: Option<string>, reply: Reply, parse: Parser): (h: Handled)
    ensures Destructurable(req) && (!Truthy(Field(req, "wakeUpTime")) || !Truthy(Field(req, "dosha"))) ==>
              h == Handled(Error(400, "Wake up time and Dosha are required"), false)
    ensures Truthy(Field(req, "wakeUpTime")) && Truthy(Field(req, "dosha")) && !KeyConfigured(key) ==>
              h == Handled(Ok(Tagged("rituals", JArr(MockRituals))), false)
    ensures Truthy(Field(req, "wakeUpTime")) && Truthy(Field(req, "dosha")) && KeyConfigured(key) ==>
              var converts := ConvertsToString(Field(req, "dosha").value) && ConvertsToString(Field(req, "wakeUpTime").value);
              && (h.providerCalled <==> converts)
              && (!converts ==> h == Handled(Error(500, "Failed to build routine"), false))
              && (converts && Normalize(reply, parse).Some? ==> h.response == Ok(Normalize(reply, parse).value))
              && (Normalize(reply, parse).None? ==> h.response == Error(500, "Failed to build routine"))
    ensures !Destructurable(req) ==> h == Handled(Error(500, "Failed to build routine"), false)
  {
    var e := DinacharyaEndpoint;
    assert HasRequired(e, req) <==> Truthy(Field(req, "wakeUpTime")) && Truthy(Field(req, "dosha")) by {
      assert e.required[0] == "wakeUpTime" && e.required[1] == "dosha";
    }
    assert PromptBuilds(e, req) <==> FieldConverts(req, "dosha") && FieldConverts(req, "wakeUpTime") by {
      assert e.prompted[0] == "dosha" && e.prompted[1] == "wakeUpTime";
    }
    Serve(e, req, key, reply, parse)
  }

  /** `POST /api/nuskhe` */
  function Nuskhe(req: RequestBody, key: Option<string>, reply: Reply, parse: Parser): (h: Handled)
    ensures Destructurable(req) && !Truthy(Field(req, "symptom")) ==>
              h == Handled(Error(400, "Symptom is required"), false)
    ensures Truthy(Field(req, "symptom")) && !KeyConfigured(key) ==>
              h == Handled(Ok(Tagged("remedy", MockRemedy)), false)
    ensures Truthy(Field(req, "symptom")) && KeyConfigured(key) ==>
              var converts := ConvertsToString(Field(req, "symptom").value);
              && (h.providerCalled <==> converts)
              && (!converts ==> h == Handled(Error(500, "Failed to find a remedy"), false))
              && (converts && Normalize(reply, parse).Some? ==> h.response == Ok(JObj([("remedy", Normalize(reply, parse).value)])))
              && (Normalize(reply, parse).None? ==> h.response == Error(500, "Failed to find a remedy"))
    ensures !Destructurable(req) ==> h == Handled(Error(500, "Failed to find a remedy"), false)
  {
    assert HasRequired(NuskheEndpoint, req) <==> Truthy(Field(req, "symptom")) by {
      assert NuskheEndpoint.required[0] == "symptom";
    }
    assert PromptBuilds(NuskheEndpoint, req) <==> FieldConverts(req, "symptom") by {
      assert NuskheEndpoint.prompted[0] == "symptom";
    }
    Serve(NuskheEndpoint, req, key, reply, parse)
  }

  /** `POST /api/swap-food` */
  function SwapFood(req: RequestBody, key: Option<string>, reply: Reply, parse: Parser): (h: Handled)
    ensures Destructurable(req) && !Truthy(Field(req, "craving")) ==>
              h == Handled(Error(400, "Craving is required"), false)
    ensures Truthy(Field(req, "craving")) && !KeyConfigured(key) ==>
              h == Handled(Ok(Tagged("swap", MockSwap)), false)
    ensures Truthy(Field(req, "craving")) && KeyConfigured(key) ==>
              var converts := ConvertsToString(Field(req, "craving").value);
              && (h.providerCalled <==> converts)
              && (!converts ==> h == Handled(Error(500, "Failed to find a swap"), false))
              && (converts && Normalize(reply, parse).Some? ==> h.response == Ok(JObj([("swap", Normalize(reply, parse).value)])))
              && (Normalize(reply, parse).None? ==> h.response == Error(500, "Failed to find a swap"))
    ensures !Destructurable(req) ==> h == Handled(Error(500, "Failed to find a swap"), false)
  {
    assert HasRequired(SwapFoodEndpoint, req) <==> Truthy(Field(req, "craving")) by {
      assert SwapFoodEndpoint.required[0] == "craving";
    }
    assert PromptBuilds(SwapFoodEndpoint, req) <==> FieldConverts(req, "craving") by {
      assert SwapFoodEndpoint.prompted[0] == "craving";
    }
    Serve(SwapFoodEndpoint, req, key, reply, parse)
  }

  /** `POST /api/generate-plan`: `{ plan: await generateMealPlan(dosha) }`. */
  function GeneratePlan(req: RequestBody, key: Option<string>, reply: Reply, parse: Parser): (h: Handled)
    ensures Destructurable(req) && !Truthy(Field(req, "dosha")) ==>
              h == Handled(Error(400, "Dosha is required"), false)
    ensures Truthy(Field(req, "dosha")) ==>
              var outcome := GenerateMealPlan(Field(req, "dosha").value, key, reply, parse);
              && h.providerCalled == outcome.providerCalled
              && (outcome.plan.Some? ==> h.response == Ok(JObj([("plan", outcome.plan.value)])))
              && (outcome.plan.None? ==> h.response == Error(500, "Failed to generate plan"))
    ensures !Destructurable(req) ==> h == Handled(Error(500, "Failed to generate plan"), false)
  {
    if !Destructurable(req) then Handled(Error(500, "Failed to generate plan"), false)
    else if !Truthy(Field(req, "dosha")) then Handled(Error(400, "Dosha is required"), false)
    else
      var outcome := GenerateMealPlan(Field(req, "dosha").value, key, reply, parse);
      match outcome.plan
      case Some(plan) => Handled(Ok(JObj([("plan", plan)])), outcome.providerCalled)
      case None => Handled(Error(500, "Failed to generate plan"), outcome.providerCalled)
  }

  // -------------------------------------------------------------- properties

  /**
   * generate-plan absorbs every provider failure: for a readable request it
   * answers 500 exactly when the dosha cannot be turned into a string, and
   * otherwise the plan is the parsed reply or the mock plan.
   */
  lemma GeneratePlanAbsorbsFailures(req: RequestBody, key: Option<string>, reply: Reply, parse: Parser)
    requires Destructurable(req)
    ensures GeneratePlan(req, key, reply, parse).response.status == 500 <==>
              Truthy(Field(req, "dosha")) && !ConvertsToString(Field(req, "dosha").value)
    ensures Truthy(Field(req, "dosha")) && ConvertsToString(Field(req, "dosha").value) && !UsableReply(reply, parse) ==>
              GeneratePlan(req, key, reply, parse).response == Ok(JObj([("plan", MockPlanFor(Field(req, "dosha").value).value)]))
  {
  }

  /**
   * The four prompted routes do fall over: with a key and a reply that does
   * not normalise, each answers its 500, where generate-plan answers 200.
   */
  lemma PromptedRoutesDoNotFallBack(req: RequestBody, key: Option<string>, reply: Reply, parse: Parser)
    requires KeyConfigured(key) && Normalize(reply, parse).None?
    ensures Truthy(Field(req, "image")) ==> AnalyzeFood(req, key, reply, parse).response.status == 500
    ensures Truthy(Field(req, "wakeUpTime")) && Truthy(Field(req, "dosha")) ==>
              Dinacharya(req, key, reply, parse).response.status == 500
    ensures Truthy(Field(req, "symptom")) ==> Nuskhe(req, key, reply, parse).response.status == 500
    ensures Truthy(Field(req, "craving")) ==> SwapFood(req, key, reply, parse).response.status == 500
    ensures Truthy(Field(req, "dosha")) ==>
              (GeneratePlan(req, key, reply, parse).response.status == 200 <==> ConvertsToString(Field(req, "dosha").value))
  {
  }

  /**
   * The routes and lib/ai.ts normalise replies alike: a reply that normalises
   * to `v` is the plan, the analysis, the remedy, the swap and the routine.
   */
  lemma SameNormaliser(req: RequestBody, key: Option<string>, reply: Reply, parse: Parser, v: Json)
    requires RejectsEmpty(parse) && KeyConfigured(key) && Normalize(reply, parse) == Some(v)
    ensures Truthy(Field(req, "dosha")) && Converted(req, "dosha") ==>
              GeneratePlan(req, key, reply, parse).response == Ok(JObj([("plan", v)]))
    ensures Truthy(Field(req, "image")) ==> AnalyzeFood(req, key, reply, parse).response == Ok(JObj([("analysis", v)]))
    ensures Truthy(Field(req, "symptom")) && Converted(req, "symptom") ==>
              Nuskhe(req, key, reply, parse).response == Ok(JObj([("remedy", v)]))
    ensures Truthy(Field(req, "craving")) && Converted(req, "craving") ==>
              SwapFood(req, key, reply, parse).response == Ok(JObj([("swap", v)]))
    ensures Truthy(Field(req, "wakeUpTime")) && Truthy(Field(req, "dosha")) &&
            Converted(req, "wakeUpTime") && Converted(req, "dosha") ==>
              Dinacharya(req, key, reply, parse).response == Ok(v)
  {
    UsableMatchesNormalize(reply, parse);
  }

  /** The field is present and converts to a string. */
  predicate Converted(req: RequestBody, name: string)
  {
    Field(req, name).Some? && ConvertsToString(Field(req, name).value)
  }

  /**
   * A field that cannot be turned into a string fails every route that
   * interpolates it, with no request, whatever the provider would have
   * replied; generate-plan fails so with or without a key, the prompted
   * routes only with one (without a key they answer their mock before
   * building the prompt), and analyze-food never interpolates its image.
   */
  lemma UnconvertibleFieldFails(req: RequestBody, key: Option<string>, reply: Reply, parse: Parser)
    ensures Truthy(Field(req, "dosha")) && !Converted(req, "dosha") ==>
              GeneratePlan(req, key, reply, parse) == Handled(Error(500, "Failed to generate plan"), false)
    ensures KeyConfigured(key) && Truthy(Field(req, "symptom")) && !Converted(req, "symptom") ==>
              Nuskhe(req, key, reply, parse) == Handled(Error(500, "Failed to find a remedy"), false)
    ensures KeyConfigured(key) && Truthy(Field(req, "craving")) && !Converted(req, "craving") ==>
              SwapFood(req, key, reply, parse) == Handled(Error(500, "Failed to find a swap"), false)
    ensures KeyConfigured(key) && Truthy(Field(req, "wakeUpTime")) && Truthy(Field(req, "dosha")) &&
            (!Converted(req, "wakeUpTime") || !Converted(req, "dosha")) ==>
              Dinacharya(req, key, reply, parse) == Handled(Error(500, "Failed to build routine"), false)
    ensures !KeyConfigured(key) && Truthy(Field(req, "symptom")) ==> Nuskhe(req, key, reply, parse).response.status == 200
  {
  }

  /** The plan reply is never tagged: generate-plan's mock has no `isMock` field. */
  lemma GeneratePlanHasNoMockFlag(req: RequestBody, key: Option<string>, reply: Reply, parse: Parser)
    requires GeneratePlan(req, key, reply, parse).response.status == 200
    ensures Prop(GeneratePlan(req, key, reply, parse).response.body, "isMock") == None
    ensures Prop(GeneratePlan(req, key, reply, parse).response.body, "plan").Some?
  {
  }

  /** nuskhe reads only the symptom: a dosha or any other field makes no difference. */
  lemma NuskheIgnoresOtherFields(symptom: Json, other: seq<(string, Json)>, key: Option<string>, reply: Reply, parse: Parser)
    requires forall i :: 0 <= i < |other| ==> other[i].0 != "symptom"
    ensures Nuskhe(Parsed(JObj(other + [("symptom", symptom)])), key, reply, parse) ==
            Nuskhe(Parsed(JObj([("symptom", symptom)])), key, reply, parse)
  {
    var f := other + [("symptom", symptom)];
    LookupUnique(f, |other|, "symptom");
    LookupUnique([("symptom", symptom)], 0, "symptom");
    assert NuskheEndpoint.required == ["symptom"] && NuskheEndpoint.prompted == ["symptom"];
    ServeReadsOnlyRequired(NuskheEndpoint, Parsed(JObj(f)), Parsed(JObj([("symptom", symptom)])), key, reply, parse);
  }

  /** The mock analysis: score 85, category "Satvik", four items. */
  lemma MockAnalysisContents()
    ensures Prop(MockAnalysis, "score") == Some(JNum(85.0))
    ensures Prop(MockAnalysis, "category") == Some(JStr("Satvik"))
    ensures Prop(MockAnalysis, "items").Some? && Prop(MockAnalysis, "items").value.JArr?
    ensures |Prop(MockAnalysis, "items").value.items| == 4
    ensures HasString(MockAnalysis, "breakdown") && HasString(MockAnalysis, "advice")
  {
    var f := MockAnalysis.fields;
    LookupUnique(f, 0, "score");
    LookupUnique(f, 1, "category");
    LookupUnique(f, 2, "breakdown");
    LookupUnique(f, 3, "advice");
    LookupUnique(f, 4, "items");
  }

  /** The mock routine: three rituals at 05:30, 06:00 and 07:30 AM. */
  lemma MockRitualTimes()
    ensures |MockRituals| == 3
    ensures Prop(MockRituals[0], "time") == Some(JStr("05:30 AM"))
    ensures Prop(MockRituals[1], "time") == Some(JStr("06:00 AM"))
    ensures Prop(MockRituals[2], "time") == Some(JStr("07:30 AM"))
    ensures forall r :: r in MockRituals ==> HasString(r, "activity") && HasString(r, "description")
  {
    forall r | r in MockRituals ensures HasString(r, "activity") && HasString(r, "description") {
      LookupUnique(r.fields, 1, "activity");
      LookupUnique(r.fields, 2, "description");
    }
    LookupUnique(MockRituals[0].fields, 0, "time");
    LookupUnique(MockRituals[1].fields, 0, "time");
    LookupUnique(MockRituals[2].fields, 0, "time");
  }

  /** Without a key, any craving (say "Pizza") gets the Ragi swap with four ingredients, tagged as a mock. */
  lemma PizzaWithoutKey(reply: Reply, parse: Parser)
    ensures var h := SwapFood(Parsed(JObj([("craving", JStr("Pizza"))])), None, reply, parse);
            && h.response.status == 200 && !h.providerCalled
            && Prop(h.response.body, "isMock") == Some(JBool(true))
            && Prop(h.response.body, "swap") == Some(MockSwap)
            && Prop(MockSwap, "name") == Some(JStr("Ragi & Vegetable Utopia"))
            && Prop(MockSwap, "ingredients").Some? && |Prop(MockSwap, "ingredients").value.items| == 4
  {
    LookupUnique([("craving", JStr("Pizza"))], 0, "craving");
    TaggedFields("swap", MockSwap);
    LookupUnique(MockSwap.fields, 0, "name");
    LookupUnique(MockSwap.fields, 3, "ingredients");
  }

  /** Without a key, the remedy is the ginger elixir whatever the symptom. */
  lemma RemedyWithoutKey(req: RequestBody, reply: Reply, parse: Parser)
    requires Truthy(Field(req, "symptom"))
    ensures var h := Nuskhe(req, None, reply, parse);
            && Prop(h.response.body, "remedy") == Some(MockRemedy)
            && Prop(h.response.body, "isMock") == Some(JBool(true))
            && Prop(MockRemedy, "title") == Some(JStr("Warm Ginger & Honey Elixir"))
  {
    TaggedFields("remedy", MockRemedy);
    LookupUnique(MockRemedy.fields, 0, "title");
  }

  /**
   * The quiz page's request `{ dosha: result }` is always accepted; without
   * a key the plan is the result's own mock plan.
   */
  lemma QuizRequestAccepted(d: Dosha, key: Option<string>, reply: Reply, parse: Parser)
    ensures var h := GeneratePlan(Parsed(JObj([("dosha", JStr(Name(d)))])), key, reply, parse);
            && h.response.status == 200
            && h.providerCalled == KeyConfigured(key)
            && (!KeyConfigured(key) ==> h.response.body == JObj([("plan", GetMockPlan(Name(d)))]))
  {
    LookupUnique([("dosha", JStr(Name(d)))], 0, "dosha");
  }
}

=== FILE: store.dfy ===
/**
 * The two handlers that write to the database: app/api/log-food/route.ts
 * appends a food-log row and bumps the user's streak, and
 * app/api/save-prakriti/route.ts sets a user's body type. The ORM's tables
 * are a sequence of food-log rows and maps keyed by user id; a write the
 * database refuses is an explicit parameter.
 */
module Store {
  import opened JsValues
  import opened JsStrings

  /** A `FoodLog` row: who ate what, and whether it was classed Satvik. */
  datatype FoodLogRow = FoodLogRow(userId: string, foodName: string, isSatvik: bool)

  /** A `Streak` row; `lastLog` is the time of the last write. */
  datatype StreakRow = StreakRow(current: nat, best: nat, lastLog: int)

  /** A `User` row: a display name and the saved body type. */
  datatype UserRow = UserRow(name: Option<string>, prakriti: Option<string>)

  datatype Tables = Tables(foodLogs: seq<FoodLogRow>, streaks: map<string, StreakRow>, users: map<string, UserRow>)

  /** Which write of `POST /api/log-food` the database refuses, if any. */
  datatype LogFault = NoLogFault | CreateFails | UpsertFails

  /** `!userId || !foodName || score === undefined`: a null score passes. */
  predicate MissingLogData(req: RequestBody)
  {
    !Truthy(Field(req, "userId")) || !Truthy(Field(req, "foodName")) || Field(req, "score").None?
  }

  /** The ORM stores userId and foodName only when they are strings. */
  predicate StorableLog(req: RequestBody)
  {
    && Field(req, "userId").Some? && Field(req, "userId").value.JStr?
    && Field(req, "foodName").Some? && Field(req, "foodName").value.JStr?
  }

  /** `category === "Satvik"` */
  predicate SatvikCategory(req: RequestBody)
  {
    Field(req, "category") == Some(JStr("Satvik"))
  }

  /**
   * `prisma.streak.upsert({ where: { userId }, ... })`: a new row
   * `{ current: 1, best: 1 }`, or the existing row with `current` one higher;
   * both stamped with the time of the write.
   */
  function UpsertStreak(streaks: map<string, StreakRow>, userId: string, now: int): (r: map<string, StreakRow>)
    ensures r.Keys == streaks.Keys + {userId}
    ensures userId !in streaks ==> r[userId] == StreakRow(1, 1, now)
    ensures userId in streaks ==>
              r[userId] == StreakRow(streaks[userId].current + 1, streaks[userId].best, now)
    ensures forall u :: u in streaks && u != userId ==> r[u] == streaks[u]
  {
    if userId in streaks then
      streaks[userId := streaks[userId].(current := streaks[userId].current + 1, lastLog := now)]
    else streaks[userId := StreakRow(1, 1, now)]
  }

  function LogJson(row: FoodLogRow): Json
  {
    JObj([("userId", JStr(row.userId)), ("foodName", JStr(row.foodName)), ("isSatvik", JBool(row.isSatvik))])
  }

  function StreakJson(userId: string, row: StreakRow): Json
  {
    JObj([("userId", JStr(userId)), ("current", JNum(row.current as real)),
          ("best", JNum(row.best as real)), ("lastLog", JNum(row.lastLog as real))])
  }

  /**
   * `POST /api/log-food` at time `now`: the reply and the tables afterwards.
   * The two writes are not in a transaction, so a refused upsert leaves the
   * new food-log row in place.
   */
  function LogFood(t: Tables, req: RequestBody, now: int, fault: LogFault): (r: (Response, Tables))
    ensures r.0.status == 400 <==> Destructurable(req) && MissingLogData(req)
    ensures r.0.status == 400 ==> r.0 == Error(400, "Missing required data")
    ensures r.0.status == 500 ==> r.0 == Error(500, "Failed to log food")
    ensures r.0.status == 200 <==>
              Destructurable(req) && !MissingLogData(req) && StorableLog(req) && fault == NoLogFault
    ensures r.0.status in {200, 400, 500}
    ensures r.1.users == t.users
    ensures r.1.foodLogs == t.foodLogs ||
            (|r.1.foodLogs| == |t.foodLogs| + 1 && r.1.foodLogs[..|t.foodLogs|] == t.foodLogs)
    ensures r.1.foodLogs != t.foodLogs <==>
              Destructurable(req) && !MissingLogData(req) && StorableLog(req) && fault != CreateFails
    ensures r.1.streaks != t.streaks ==> r.0.status == 200
  {
    if !Destructurable(req) then (Error(500, "Failed to log food"), t)
    else if MissingLogData(req) then (Error(400, "Missing required data"), t)
    else if !StorableLog(req) || fault == CreateFails then (Error(500, "Failed to log food"), t)
    else
      var userId := Field(req, "userId").value.s;
      var row := FoodLogRow(userId, Field(req, "foodName").value.s, SatvikCategory(req));
      var logged := t.(foodLogs := t.foodLogs + [row]);
      if fault == UpsertFails then (Error(500, "Failed to log food"), logged)
      else
        var streaks := UpsertStreak(t.streaks, userId, now);
        assert fault == NoLogFault;
        (Ok(JObj([("success", JBool(true)), ("log", LogJson(row)),
                  ("streak", StreakJson(userId, streaks[userId]))])),
         logged.(streaks := streaks))
  }

  /** A request body with the four fields the food logger reads. */
  function LogRequest(userId: string, foodName: string, score: Json, category: Json): RequestBody
  {
    Parsed(JObj([("userId", JStr(userId)), ("foodName", JStr(foodName)), ("score", score), ("category", category)]))
  }

  lemma LogRequestFields(userId: string, foodName: string, score: Json, category: Json)
    ensures var req := LogRequest(userId, foodName, score, category);
            && Field(req, "userId") == Some(JStr(userId))
            && Field(req, "foodName") == Some(JStr(foodName))
            && Field(req, "score") == Some(score)
            && Field(req, "category") == Some(category)
  {
    var f := LogRequest(userId, foodName, score, category).value.fields;
    LookupUnique(f, 0, "userId");
    LookupUnique(f, 1, "foodName");
    LookupUnique(f, 2, "score");
    LookupUnique(f, 3, "category");
  }

  /** A score of 0 (or null) is accepted: only an undefined score is missing. */
  lemma ZeroScoreAccepted(t: Tables, userId: string, foodName: string, category: Json, now: int)
    requires userId != "" && foodName != ""
    ensures LogFood(t, LogRequest(userId, foodName, JNum(0.0), category), now, NoLogFault).0.status == 200
    ensures LogFood(t, LogRequest(userId, foodName, JNull, category), now, NoLogFault).0.status == 200
  {
    LogRequestFields(userId, foodName, JNum(0.0), category);
    LogRequestFields(userId, foodName, JNull, category);
  }

  /** A logged row is Satvik exactly when the category is the string "Satvik"; no category is not an error. */
  lemma SatvikIffCategory(t: Tables, req: RequestBody, now: int, fault: LogFault)
    requires LogFood(t, req, now, fault).1.foodLogs != t.foodLogs
    ensures var logs := LogFood(t, req, now, fault).1.foodLogs;
            logs[|logs| - 1] == FoodLogRow(Field(req, "userId").value.s, Field(req, "foodName").value.s,
                                           Field(req, "category") == Some(JStr("Satvik")))
  {
  }

  /** The user's streak after a successful log: new users start at 1/1, others go up by one with best unchanged. */
  lemma StreakAfterLog(t: Tables, req: RequestBody, now: int)
    requires LogFood(t, req, now, NoLogFault).0.status == 200
    ensures var u := Field(req, "userId").value.s;
            var s := LogFood(t, req, now, NoLogFault).1.streaks;
            && u in s
            && (u !in t.streaks ==> s[u] == StreakRow(1, 1, now))
            && (u in t.streaks ==> s[u] == StreakRow(t.streaks[u].current + 1, t.streaks[u].best, now))
            && (forall v :: v in t.streaks && v != u ==> v in s && s[v] == t.streaks[v])
  {
  }

  /** `n` successful logs in a row, at the given times. */
  function LogSeries(t: Tables, req: RequestBody, times: seq<int>): Tables
  {
    if times == [] then t
    else LogFood(LogSeries(t, req, times[..|times| - 1]), req, times[|times| - 1], NoLogFault).1
  }

  /**
   * Every call bumps the streak, even on the same day, and `best` is never
   * raised: a new user who logs `n` meals has `current == n` and `best == 1`,
   * and `n` new rows.
   */
  lemma {:induction false} StreakCountsEveryLog(t: Tables, req: RequestBody, times: seq<int>)
    requires Destructurable(req) && !MissingLogData(req) && StorableLog(req)
    requires Field(req, "userId").value.s !in t.streaks
    requires |times| > 0
    ensures var after := LogSeries(t, req, times);
            var u := Field(req, "userId").value.s;
            && u in after.streaks
            && after.streaks[u] == StreakRow(|times|, 1, times[|times| - 1])
            && |after.foodLogs| == |t.foodLogs| + |times|
  {
    var init := times[..|times| - 1];
    if init != [] {
      StreakCountsEveryLog(t, req, init);
    }
  }

  /** `!userId || !prakriti` */
  predicate MissingPrakritiData(req: RequestBody)
  {
    !Truthy(Field(req, "userId")) || !Truthy(Field(req, "prakriti"))
  }

  function UserJson(id: string, row: UserRow): Json
  {
    var name := match row.name case Some(n) => JStr(n) case None => JNull;
    var prakriti := match row.prakriti case Some(p) => JStr(p) case None => JNull;
    JObj([("id", JStr(id)), ("name", name), ("prakriti", prakriti)])
  }

  /**
   * `POST /api/save-prakriti`: the user's `prakriti` becomes the upper-cased
   * input. A non-string prakriti has no `toUpperCase`, and an unknown or
   * non-string user id, or a refused update, makes the update throw: 500.
   */
  function SavePrakriti(t: Tables, req: RequestBody, updateFails: bool): (r: (Response, Tables))
    ensures r.0.status == 400 <==> Destructurable(req) && MissingPrakritiData(req)
    ensures r.0.status == 400 ==> r.0 == Error(400, "Missing data")
    ensures r.0.status == 500 ==> r.0 == Error(500, "Failed to save")
    ensures r.0.status in {200, 400, 500}
    ensures r.0.status != 200 ==> r.1 == t
    ensures r.0.status == 200 ==>
              && Field(req, "userId").Some? && Field(req, "userId").value.JStr?
              && Field(req, "prakriti").Some? && Field(req, "prakriti").value.JStr?
              && var id := Field(req, "userId").value.s;
              && id in t.users
              && r.1 == t.(users := t.users[id := t.users[id].(prakriti := Some(Upper(Field(req, "prakriti").value.s)))])
  {
    if !Destructurable(req) then (Error(500, "Failed to save"), t)
    else if MissingPrakritiData(req) then (Error(400, "Missing data"), t)
    else
      var prakriti := Field(req, "prakriti").value;
      var userId := Field(req, "userId").value;
      if !prakriti.JStr? || !userId.JStr? || userId.s !in t.users || updateFails then
        (Error(500, "Failed to save"), t)
      else
        var row := t.users[userId.s].(prakriti := Some(Upper(prakriti.s)));
        (Ok(JObj([("success", JBool(true)), ("user", UserJson(userId.s, row))])),
         t.(users := t.users[userId.s := row]))
  }

  /**
   * Only the named user changes, and only in its prakriti field, which then
   * holds no lower-case ASCII letter.
   */
  lemma SaveTouchesOneUser(t: Tables, req: RequestBody)
    requires SavePrakriti(t, req, false).0.status == 200
    ensures var after := SavePrakriti(t, req, false).1;
            var id := Field(req, "userId").value.s;
            && after.users.Keys == t.users.Keys
            && after.users[id].name == t.users[id].name
            && after.users[id].prakriti == Some(Upper(Field(req, "prakriti").value.s))
            && (forall k :: 0 <= k < |after.users[id].prakriti.value| ==> !('a' <= after.users[id].prakriti.value[k] <= 'z'))
            && (forall v :: v in t.users && v != id ==> after.users[v] == t.users[v])
            && after.foodLogs == t.foodLogs && after.streaks == t.streaks
  {
    UpperIdempotent(Field(req, "prakriti").value.s);
  }

  /** Saving the same input twice leaves the same state as saving it once. */
  lemma SaveIdempotent(t: Tables, req: RequestBody)
    requires SavePrakriti(t, req, false).0.status == 200
    ensures var once := SavePrakriti(t, req, false).1;
            SavePrakriti(once, req, false) == (SavePrakriti(once, req, false).0, once)
  {
    var once := SavePrakriti(t, req, false).1;
    var id := Field(req, "userId").value.s;
    var row := once.users[id].(prakriti := Some(Upper(Field(req, "prakriti").value.s)));
    assert row == once.users[id];
    assert once.users[id := row] == once.users;
  }

  /** "vata" and "Vata" are both stored as "VATA". */
  lemma SavedNamesAreUpperCase()
    ensures Upper("vata") == "VATA" && Upper("Vata") == "VATA"
    ensures Upper("Pitta") == "PITTA" && Upper("Kapha") == "KAPHA"
  {
  }

  /** The application's database: the three tables the handlers write to. */
  class Database {
    var foodLogs: seq<FoodLogRow>
    var streaks: map<string, StreakRow>
    var users: map<string, UserRow>

    function Contents(): Tables
      reads this
    {
      Tables(foodLogs, streaks, users)
    }

    /** A database holding the given users and no logs or streaks. */
    constructor (initialUsers: map<string, UserRow>)
      ensures Contents() == Tables([], map[], initialUsers)
    {
      foodLogs := [];
      streaks := map[];
      users := initialUsers;
    }

    /** `POST /api/log-food`: validate, insert the food-log row, upsert the streak. */
    method PostLogFood(req: RequestBody, now: int, fault: LogFault) returns (response: Response)
      modifies this
      ensures (response, Contents()) == LogFood(old(Contents()), req, now, fault)
    {
      if !Destructurable(req) {
        return Error(500, "Failed to log food");
      }
      if MissingLogData(req) {
        return Error(400, "Missing required data");
      }
      if !StorableLog(req) || fault == CreateFails {
        return Error(500, "Failed to log food");
      }
      var userId := Field(req, "userId").value.s;
      var row := FoodLogRow(userId, Field(req, "foodName").value.s, SatvikCategory(req));
      foodLogs := foodLogs + [row];
      if fault == UpsertFails {
        return Error(500, "Failed to log food");
      }
      if userId in streaks {
        var s := streaks[userId];
        streaks := streaks[userId := StreakRow(s.current + 1, s.best, now)];
      } else {
        streaks := streaks[userId := StreakRow(1, 1, now)];
      }
      response := Ok(JObj([("success", JBool(true)), ("log", LogJson(row)),
                           ("streak", StreakJson(userId, streaks[userId]))]));
    }

    /** `POST /api/save-prakriti`: validate, upper-case, update one user row. */
    method PostSavePrakriti(req: RequestBody, updateFails: bool) returns (response: Response)
      modifies this
      ensures (response, Contents()) == SavePrakriti(old(Contents()), req, updateFails)
    {
      if !Destructurable(req) {
        return Error(500, "Failed to save");
      }
      if MissingPrakritiData(req) {
        return Error(400, "Missing data");
      }
      var prakriti := Field(req, "prakriti").value;
      if !prakriti.JStr? {
        return Error(500, "Failed to save");
      }
      var doshaEnum := Upper(prakriti.s);
      var userId := Field(req, "userId").value;
      if !userId.JStr? || userId.s !in users || updateFails {
        return Error(500, "Failed to save");
      }
      var row := users[userId.s].(prakriti := Some(doshaEnum));
      users := users[userId.s := row];
      response := Ok(JObj([("success", JBool(true)), ("user", UserJson(userId.s, row))]));
    }
  }
}
